=== FILE: README.md ===
# CBAssistiveTouch geometry engine, in Dafny

This project models the core of CBAssistiveTouch, a draggable floating
button for iOS, and proves properties of that model. It covers:

- the quadrant classification of a point against a bounding rectangle;
- both generations of the rectangle helpers:
  - the current eight edges and corners, with translation, alignment and the closest edge;
  - the earlier four-side absolute alignment;
- the earlier drag manipulator: `touchesBegan`, `touchesMoved`, `touchesEnded` and `touchesCancelled`, the centre getter and setter, the margin-inset snap target, the per-quadrant choice of the side to snap to, and the change callback fired on every frame assignment;
- the `Touch` value type;
- the in-memory log store with its change notification and the `log(event:parameters:)` helper;
- both default layouts, with their constants and initial-position formula;
- the Danger script that checks a pull request's title prefix and flags "umbrella" branches.

`CGFloat` is `real`. A `CGRect` keeps its raw origin and size, and its
`minX`/`maxX`/`midX`/`width` (and the y counterparts) follow Core Graphics'
standardized reading, so negative sizes are modelled rather than excluded.
`insetBy` returns `None` where Core Graphics returns the null rectangle.

Stateful objects become values:

- A manipulator session records every frame value handed to `onChange`, oldest first, in `changes`.
- A logger records every entry list handed to `onEntriesChanged` in `notifications`.
- `Set.first` is an unspecified choice from a non-empty set (`Touches.First`), so the touch handlers are ghost functions.

Ruby's regular expressions in the Danger script are written out twice:

- as predicates saying where a match begins and ends (`PrefixMatchAt`, `PrNumberMatchAt`);
- as the scanning functions that find a match.

Lemmas connect the two. In Ruby, `^` matches at the start of every line and `$` at the end of every line.

Modules:

| file | module | models |
|---|---|---|
| Geometry.dfy | `Optional`, `Geometry` | option type; points, sizes, rectangles, `magnitude2`, `insetBy` |
| Quadrants.dfy | `Quadrants` | `Quadrant(point:bounding:)` |
| RectEdges.dfy | `RectEdges` | current `CGRect+Ext` |
| LegacyRectEdges.dfy | `LegacyRectEdges` | earlier `CGRect+Ext` |
| Touches.dfy | `Touches` | `Touch`, `Set.first` |
| Manipulator.dfy | `Manipulator` | earlier `AssistiveTouchManipulator` |
| Layouts.dfy | `Layouts` | both default layouts |
| LoggerStore.dfy | `LoggerStore` | `CBInMemoryLogger`, `CBLogger.log` |
| PrInfo.dfy | `PrInfo` | `check-pr-info.rb` |

How the earlier manipulator snaps:

- It has no clamping step. `touchesEnded` and `touchesCancelled` move the frame, then align it to one side of the bounding rectangle inset by the layout margin. Nothing keeps the frame inside.
- The side is chosen by comparing the distances from the frame's centre to the two sides of its quadrant. Distances are not measured from the frame's edges. In `Manipulator.SnapToLeftExample`, a frame centred at (130, 210) in a 300x400 rectangle compares left (130) with bottom (190).
- It only ever snaps to a side, never to a corner.
- Snapping is not a fixed point: a frame half outside the bounds can snap again along the other axis (`Manipulator.SnapIsNotAFixedPoint`).

## Model

| member | source | states |
|---|---|---|
| Geometry.Magnitude2 | Sources/CBAssistiveTouch/Classes/CGRect+Ext.swift:14-16 | the squared length is never negative and is zero exactly for the zero vector |
| Geometry.InsetBy | CBAssistiveTouch/Classes/AssistiveTouchManipulator.swift:35-37 | `insetBy(dx:dy:)` is a proper rectangle exactly when twice the insets fit in the width and height; it then has non-negative size and its edges are those of the input moved inwards by dx and dy |
| Geometry.Offset | Sources/CBAssistiveTouch/Classes/CGRect+Ext.swift:54-60 | moving a rectangle by a vector keeps its size and shifts every edge by the vector |
| Quadrants.AxesOrigin | Sources/CBAssistiveTouch/Quadrant.swift:28-29 | the axes cross at the midpoint between the bounding rectangle's extreme edges |
| Quadrants.QuadrantOf | Sources/CBAssistiveTouch/Quadrant.swift:17-45 | I or IV exactly when x is at or right of the centre line, and I or II exactly when y is at or above it, so ties go to I, IV and the upper quadrants |
| Quadrants.CentreIsInQuadrantI | Sources/CBAssistiveTouch/Quadrant.swift:31-33 | the bounding rectangle's own centre is in quadrant I |
| Quadrants.QuadrantIsTranslationInvariant | Sources/CBAssistiveTouch/Quadrant.swift:28-44 | moving the point and the bounding rectangle by the same vector keeps the quadrant |
| RectEdges.IndexOf | Sources/CBAssistiveTouch/Classes/CGRect+Ext.swift:22-31 | every edge occurs in `allCases`, at its declaration position |
| RectEdges.Translation | Sources/CBAssistiveTouch/Classes/CGRect+Ext.swift:33-52 | moving by the translation makes the named edges coincide with the target's; a top or bottom translation has no x part, a left or right one no y part |
| RectEdges.CornerTranslationCombinesSides | Sources/CBAssistiveTouch/Classes/CGRect+Ext.swift:43-50 | each corner's translation takes x from its vertical side and y from its horizontal side |
| RectEdges.AlignedAsWritten | Sources/CBAssistiveTouch/Classes/CGRect+Ext.swift:54-60 | as written: size and origin.y are kept, and origin.x moves by the sum of both translation components |
| RectEdges.AlignedAsWrittenMissesTop | Sources/CBAssistiveTouch/Classes/CGRect+Ext.swift:58 | a 10x10 square at the origin aligned to the top of a rectangle at y = 5 moves right by 5 and is not flush with the top |
| RectEdges.Aligned | Sources/CBAssistiveTouch/Classes/CGRect+Ext.swift:54-60 | corrected: size is kept, the result is flush with the target on the named edges, an alignment to the top or bottom keeps origin.x, and one to the left or right keeps origin.y |
| RectEdges.AlignedIsIdempotent | Sources/CBAssistiveTouch/Classes/CGRect+Ext.swift:54-60 | aligning an aligned rectangle again changes nothing |
| RectEdges.Candidates | Sources/CBAssistiveTouch/Classes/CGRect+Ext.swift:63-64 | the mapped candidates are every edge with its translation, in declaration order |
| RectEdges.FirstShortest | Sources/CBAssistiveTouch/Classes/CGRect+Ext.swift:65 | `min(by:)` settles on a shortest candidate that is strictly shorter than every earlier one |
| RectEdges.MinByMagnitude | Sources/CBAssistiveTouch/Classes/CGRect+Ext.swift:65 | the minimum is absent only for no candidates; otherwise it is a candidate no other candidate is shorter than |
| RectEdges.ClosestEdge | Sources/CBAssistiveTouch/Classes/CGRect+Ext.swift:62-66 | always present; its translation is the translation for its edge, no edge needs a shorter one, and every edge declared earlier needs a strictly longer one |
| RectEdges.DroppingAComponentShortens | Sources/CBAssistiveTouch/Classes/CGRect+Ext.swift:14-16 | zeroing one component of a vector never increases its squared length |
| RectEdges.FirstShortestAmongFirstFour | Sources/CBAssistiveTouch/Classes/CGRect+Ext.swift:65 | when each of the last four candidates is no shorter than one of the first four, the first minimum is among the first four |
| RectEdges.SidesComeFirst | Sources/CBAssistiveTouch/Classes/CGRect+Ext.swift:22-26 | the first four cases are the four sides |
| RectEdges.ClosestEdgeIsASide | Sources/CBAssistiveTouch/Classes/CGRect+Ext.swift:62-66 | the closest edge is always top, left, bottom or right, never a corner |
| RectEdges.MinimumTranslation | Sources/CBAssistiveTouch/Classes/CGRect+Ext.swift:68-73 | the translation to the closest edge, shortest of all; the zero fallback is never taken |
| LegacyRectEdges.Aligned | CBAssistiveTouch/Classes/CGRect+Ext.swift:21-34 | size is kept; top and bottom keep origin.x, left and right keep origin.y; top and left set origin.y or origin.x to the target's minimum; bottom and right put the raw far edge on the target's maximum |
| LegacyRectEdges.AlignedIsFlush | CBAssistiveTouch/Classes/CGRect+Ext.swift:24-31 | for a non-negative size the aligned rectangle is flush with the target on the chosen side |
| LegacyRectEdges.AlignedIsIdempotent | CBAssistiveTouch/Classes/CGRect+Ext.swift:21-34 | aligning twice to the same side equals aligning once |
| LegacyRectEdges.AlignedAxesCommute | CBAssistiveTouch/Classes/CGRect+Ext.swift:21-34 | aligning to a horizontal side and to a vertical side commute |
| Touches.Equal | Sources/CBAssistiveTouch/TocuhHandling.swift:20-22 | two touches are equal exactly when identifier and point both agree |
| Touches.HashInputs | Sources/CBAssistiveTouch/TocuhHandling.swift:15-18 | the touch can be rebuilt from what the hash consumes, so no compared field is left out |
| Touches.HashAgreesWithEquality | Sources/CBAssistiveTouch/TocuhHandling.swift:15-22 | the hash consumes exactly the compared fields: equal touches hash the same inputs and only equal touches do |
| Touches.EqualIsEquivalence | Sources/CBAssistiveTouch/TocuhHandling.swift:20-22 | equality is reflexive, symmetric and transitive |
| Touches.SamplesOfOneContactAreDistinct | Sources/CBAssistiveTouch/TocuhHandling.swift:11-22 | two samples of one contact at different points are different, so a set holds both |
| Touches.First | CBAssistiveTouch/Classes/AssistiveTouchManipulator.swift:48 | `first` is absent exactly for an empty set and is otherwise a member |
| Touches.FirstOfSingleton | CBAssistiveTouch/Classes/AssistiveTouchManipulator.swift:48 | the first touch of a one-touch set is that touch |
| Manipulator.New | CBAssistiveTouch/Classes/AssistiveTouchManipulator.swift:41-45 | the initialiser stores frame, bounding and margin, has no previous point and fires no change |
| Manipulator.SetFrame | CBAssistiveTouch/Classes/AssistiveTouchManipulator.swift:14-18 | every frame assignment hands the new value to the change callback exactly once and changes nothing else |
| Manipulator.Center | CBAssistiveTouch/Classes/AssistiveTouchManipulator.swift:23-26 | the centre lies halfway between the frame's extreme edges on each axis |
| Manipulator.SetCenter | CBAssistiveTouch/Classes/AssistiveTouchManipulator.swift:27-33 | setting the centre keeps the size, fires one change, and for a non-negative size puts the midpoint at the new centre |
| Manipulator.LayoutBounding | CBAssistiveTouch/Classes/AssistiveTouchManipulator.swift:35-37 | the snap target is the bounding rectangle inset by the margin on all four sides, defined exactly when twice the margin fits |
| Manipulator.Move | CBAssistiveTouch/Classes/AssistiveTouchManipulator.swift:47-57 | without a touch or a previous point nothing changes; otherwise the touch becomes the previous point, the size is kept, one change fires, and for a frame of non-negative size the centre moves by the touch's offset from the previous point |
| Manipulator.SnapEdge | CBAssistiveTouch/Classes/AssistiveTouchManipulator.swift:63-89 | quadrant I gives right or top, II left or top, III left or bottom, IV right or bottom; a left or right side is picked only when strictly nearer than the top or bottom of the centre's half |
| Manipulator.SnapEdgeIsNearestSide | CBAssistiveTouch/Classes/AssistiveTouchManipulator.swift:63-89 | the picked side is a nearest of all four sides to the centre, and a vertical side is picked only when strictly nearer than both horizontal sides |
| Manipulator.Align | CBAssistiveTouch/Classes/AssistiveTouchManipulator.swift:59-91 | the frame keeps its size; a snap to the top or bottom keeps origin.x and a snap to the left or right keeps origin.y; for a non-negative size it becomes flush with the picked side; one change fires |
| Manipulator.TouchesBegan | CBAssistiveTouch/Classes/AssistiveTouchManipulator.swift:96-102 | an empty set changes nothing; otherwise a touch's point becomes the previous point; the frame is never assigned |
| Manipulator.TouchesMoved | CBAssistiveTouch/Classes/AssistiveTouchManipulator.swift:104-106 | without a touch or a previous point nothing changes; otherwise a touch's point becomes the previous point, the size is kept, one change fires, and a frame of non-negative size has its centre displaced by the offset between the old and new previous points |
| Manipulator.TouchesEnded | CBAssistiveTouch/Classes/AssistiveTouchManipulator.swift:113-116 | the move, then a snap that keeps the size and the moved frame's origin.x (top or bottom) or origin.y (left or right), and for a non-negative size leaves the frame flush with the picked side of the inset bounds; two changes after a successful move, one after a failed one; bounding and margin are unchanged |
| Manipulator.TouchesCancelled | CBAssistiveTouch/Classes/AssistiveTouchManipulator.swift:108-111 | cancelling has exactly the effect of ending |
| Manipulator.DragMovesCentreByNetOffset | CBAssistiveTouch/Classes/AssistiveTouchManipulator.swift:47-57 | after any number of moves the centre is displaced by the net offset from the previous point to the last point, which becomes the previous point, with one change per move |
| Manipulator.BeganThenDragged | CBAssistiveTouch/Classes/AssistiveTouchManipulator.swift:96-106 | a gesture beginning at p0 and moving through p1..pn displaces the centre by pn - p0 |
| Manipulator.BeganThenMovedExample | CBAssistiveTouch/Classes/AssistiveTouchManipulator.swift:47-57 | beginning at (10, 10) and moving to (15, 12) moves a centre at (50, 50) to (55, 52) with one change |
| Manipulator.SnapToLeftExample | CBAssistiveTouch/Classes/AssistiveTouchManipulator.swift:77-82 | a 60x60 frame at (100, 180) in a 300x400 rectangle snaps to the left side, to origin (0, 180) |
| Manipulator.SnapIsNotAFixedPoint | CBAssistiveTouch/Classes/AssistiveTouchManipulator.swift:59-91 | a 60x60 frame at (265, -10) in a 300x400 rectangle snaps right to (240, -10); snapping that again moves it up to (240, 0) |
| Layouts.WithSafeArea | Sources/CBAssistiveTouch/AssistiveTouchLayout.swift:22-39 | the insets are stored as given; no custom view, 0.25 s animations, margin 20, a 60x60 button |
| Layouts.WithApplicationWindow | Sources/CBAssistiveTouch/AssistiveTouchLayout.swift:41-44 | the window's insets, or zero insets without a window, with the same defaults |
| Layouts.RightHandPosition | Sources/CBAssistiveTouch/AssistiveTouchLayout.swift:30-33 | the button's right edge is `margin` inside the screen width, and its centre is at the screen's mid y |
| Layouts.InitialPosition | Sources/CBAssistiveTouch/AssistiveTouchLayout.swift:30-33 | the button's right edge, computed from the layout's current size, lies the layout's current margin inside the screen width, and its centre is at the screen's mid y |
| Layouts.LegacyInitialPosition | CBAssistiveTouch/Classes/AssistiveTouchLayout.swift:22-37 | with margin 2 and a 60x60 button the position is (screen width - 32, screen mid y) |
| Layouts.LegacyLayoutDiffersOnlyInMargin | CBAssistiveTouch/Classes/AssistiveTouchLayout.swift:20-32 | the earlier layout has the current animation duration (0.25 s) and button size (60x60); its margin of 2 is a tenth of the current 20 |
| Layouts.CentredAt | Sources/CBAssistiveTouch/AssistiveTouchLayout.swift:30-33 | the rectangle of a given size centred at a point has that size and midpoint |
| Layouts.InitialPositionIsRightSnapped | Sources/CBAssistiveTouch/AssistiveTouchLayout.swift:30-33 | on a screen at the origin, a button at the initial position is already flush with the right side of the margin-inset screen, so snapping it right leaves it in place |
| Layouts.DefaultInitialPositionExample | Sources/CBAssistiveTouch/AssistiveTouchLayout.swift:24-33 | on a 390x844 screen the default button is centred at (340, 422) |
| LoggerStore.New | Sources/CBLoggerWindow/CBLoggerStore.swift:28-30 | the given entries are stored unchanged and nothing is handed over |
| LoggerStore.Publish | Sources/CBLoggerWindow/CBLoggerStore.swift:33-34 | a mutation makes its entries current and hands them over once |
| LoggerStore.Append | Sources/CBLoggerWindow/CBLoggerStore.swift:32-35 | the entry goes last, earlier entries are unchanged, and the new list is handed over once |
| LoggerStore.ReplaceAll | Sources/CBLoggerWindow/CBLoggerStore.swift:37-40 | the entries become the given list, which is handed over once |
| LoggerStore.Clear | Sources/CBLoggerWindow/CBLoggerStore.swift:42-45 | no entries remain, and the empty list is handed over once |
| LoggerStore.ClearIsReplaceWithNothing | Sources/CBLoggerWindow/CBLoggerStore.swift:37-45 | clearing is replacing with the empty list |
| LoggerStore.ReplaceAllTwice | Sources/CBLoggerWindow/CBLoggerStore.swift:37-40 | replacing twice with the same list leaves that list and hands it over twice |
| LoggerStore.EventText | Sources/CBLoggerWindow/CBLoggerStore.swift:14-18 | without parameters the text is the event; with them it is one character longer than event and description together |
| LoggerStore.EventTextSplits | Sources/CBLoggerWindow/CBLoggerStore.swift:14-18 | the text starts with the event, and a description follows after exactly one space |
| LoggerStore.Log | Sources/CBLoggerWindow/CBLoggerStore.swift:14-20 | one entry is appended that starts with the event and is the event verbatim without parameters; the new list is handed over once |
| LoggerStore.AppendAllConcatenates | Sources/CBLoggerWindow/CBLoggerStore.swift:32-35 | appending entries one by one leaves them after the old entries in order, one notification each, the last carrying the final list |
| LoggerStore.ReplaceAllIsClearThenAppend | Sources/CBLoggerWindow/CBLoggerStore.swift:32-45 | replacing gives the same entries as clearing then appending one by one |
| PrInfo.PrefixesPairKeysWithDescriptions | Dangerfiles/check-pr-info.rb:1-11 | the table pairs each prefix with its description, in declaration order |
| PrInfo.KeyIsWord | Dangerfiles/check-pr-info.rb:1-11 | each of the nine prefixes is a non-empty run of lower-case letters |
| PrInfo.PrefixIsWord | Dangerfiles/check-pr-info.rb:1-11 | every prefix of the table is a non-empty run of lower-case letters, so each can be captured by `[a-z]+` |
| PrInfo.SplitLines | Dangerfiles/check-pr-info.rb:32 | splitting at line feeds gives at least one piece and no piece holds a line feed |
| PrInfo.JoinSplitLines | Dangerfiles/check-pr-info.rb:32 | joining the pieces of a split with line feeds gives back the text |
| PrInfo.SplitJoinLines | Dangerfiles/check-pr-info.rb:20 | splitting lines joined with line feeds gives back the lines when none holds a line feed |
| PrInfo.LetterRun | Dangerfiles/check-pr-info.rb:15 | the greedy `[a-z]+` run: all letters, and the next character, if any, is not one |
| PrInfo.LetterRunIs | Dangerfiles/check-pr-info.rb:15 | a letter run followed by a non-letter is the greedy run |
| PrInfo.CaptureAt | Dangerfiles/check-pr-info.rb:15 | a reported capture is a match of `^([a-z]+): ` at that position |
| PrInfo.CaptureAtIsTheMatch | Dangerfiles/check-pr-info.rb:15 | the pattern matches at a position with a given capture exactly when that capture is reported there |
| PrInfo.MatchPosition | Dangerfiles/check-pr-info.rb:15 | the leftmost position at or after the start where the pattern matches, or the end when none does |
| PrInfo.FirstCapture | Dangerfiles/check-pr-info.rb:15 | `match` reports the capture at the leftmost matching position, and nothing exactly when no position matches |
| PrInfo.TableLines | Dangerfiles/check-pr-info.rb:20 | one "- `k` - description" row per prefix, in table order |
| PrInfo.TitlePrefixError | Dangerfiles/check-pr-info.rb:14-27 | no error exactly when the leftmost match captures a prefix of the table; any error is the format message |
| PrInfo.FirstCaptureOfLine | Dangerfiles/check-pr-info.rb:15 | on a one-line title only the start of the title can match |
| PrInfo.NoCaptureAfterStart | Dangerfiles/check-pr-info.rb:15 | on a title without line feeds no position after the start matches |
| PrInfo.CaptureAtStart | Dangerfiles/check-pr-info.rb:15 | a capture at the start means the title starts with it, a colon and a space |
| PrInfo.StartCaptures | Dangerfiles/check-pr-info.rb:15 | a title starting with a lower-case word, a colon and a space captures that word |
| PrInfo.OneLineTitlePasses | Dangerfiles/check-pr-info.rb:15-17 | a one-line title passes exactly when it starts with a table prefix followed by ": " |
| PrInfo.KnownPrefixAtStartPasses | Dangerfiles/check-pr-info.rb:15-17 | a title starting with a table prefix and ": " passes whatever its later lines hold |
| PrInfo.KnownPrefixExample | Dangerfiles/check-pr-info.rb:15-17 | "fix: crash" passes |
| PrInfo.CapitalisedPrefixExample | Dangerfiles/check-pr-info.rb:15-17 | "Fix: crash" fails |
| PrInfo.ColonWithoutSpaceFails | Dangerfiles/check-pr-info.rb:15-17 | a one-line title where a lower-case word and a colon are followed by anything but a space fails |
| PrInfo.MissingSpaceExample | Dangerfiles/check-pr-info.rb:15-17 | "fix:crash" fails |
| PrInfo.UnknownWordFails | Dangerfiles/check-pr-info.rb:15-17 | a one-line title starting with a word outside the table, a colon and a space fails |
| PrInfo.LongerWordExample | Dangerfiles/check-pr-info.rb:15-17 | "fixup: crash" fails |
| PrInfo.UnknownWordExample | Dangerfiles/check-pr-info.rb:15-17 | "feature: x" fails |
| PrInfo.FirstLineHasNoCapture | Dangerfiles/check-pr-info.rb:15 | a first line not starting with a lower-case letter holds no match, whatever follows |
| PrInfo.CaptureAfterLineFeed | Dangerfiles/check-pr-info.rb:15 | a line starting with a word, a colon and a space captures the word, because `^` matches after every line feed |
| PrInfo.PrefixOnSecondLinePasses | Dangerfiles/check-pr-info.rb:15-17 | a title whose first line does not start with a lower-case letter passes when its second line starts with a table prefix and ": " |
| PrInfo.PrefixOnLaterLineExample | Dangerfiles/check-pr-info.rb:15 | "WIP", a line feed, then "fix: crash" passes, because `^` matches at every line start |
| PrInfo.JoinLinesAppend | Dangerfiles/check-pr-info.rb:20-26 | joining two lists with a line feed between them joins their concatenation |
| PrInfo.FormatMessageJoinsLines | Dangerfiles/check-pr-info.rb:19-26 | the message is the header lines followed by the table rows, joined as one list with line feeds |
| PrInfo.HeaderLineHasNoLineFeed | Dangerfiles/check-pr-info.rb:21-25 | each of the five header lines is a single line |
| PrInfo.FormatMessageLines | Dangerfiles/check-pr-info.rb:19-26 | the error text reads line by line as the format header followed by one row per prefix, in table order |
| PrInfo.NoLineFeedInConcat | Dangerfiles/check-pr-info.rb:19-26 | two texts without line feeds concatenate to one without |
| PrInfo.DropTrailingEmpty | Dangerfiles/check-pr-info.rb:32 | trailing empty pieces are removed and nothing else |
| PrInfo.CommitTitles | Dangerfiles/check-pr-info.rb:32 | no commit title holds a line feed and the last is not empty |
| PrInfo.SplitTerminatedLines | Dangerfiles/check-pr-info.rb:32 | lines each ending in a line feed split into those lines and an empty last piece |
| PrInfo.EmptyLinesAreNoTitles | Dangerfiles/check-pr-info.rb:32 | a log that is a single line feed holds no titles |
| PrInfo.CommitTitlesOfLog | Dangerfiles/check-pr-info.rb:32 | titles printed one per line are read back as printed |
| PrInfo.DigitRunBefore | Dangerfiles/check-pr-info.rb:35 | the greedy `\d+` run before a position: all digits, preceded by a non-digit or the start |
| PrInfo.DigitRunBeforeIs | Dangerfiles/check-pr-info.rb:35 | a digit run preceded by a non-digit is the greedy run |
| PrInfo.PrNumberEndsAt | Dangerfiles/check-pr-info.rb:35 | when reported, ` \(#\d+\)$` matches ending at that position |
| PrInfo.PrNumberEndsAtFindsMatches | Dangerfiles/check-pr-info.rb:35 | every match ending at a position is reported |
| PrInfo.PrNumberFrom | Dangerfiles/check-pr-info.rb:35 | reported exactly when a match ends at or after the position |
| PrInfo.HasPrNumber | Dangerfiles/check-pr-info.rb:35 | a title has a pull-request number exactly when the pattern matches somewhere in it |
| PrInfo.OneLinePrNumberEndsTitle | Dangerfiles/check-pr-info.rb:35 | on a one-line title the number must end the title |
| PrInfo.PrNumberExamples | Dangerfiles/check-pr-info.rb:35 | "Add login screen (#128)" carries a number; the same followed by " again" does not |
| PrInfo.NoClosingParenthesisNoNumber | Dangerfiles/check-pr-info.rb:35 | a one-line title not ending in `)` carries no number |
| PrInfo.PrCount | Dangerfiles/check-pr-info.rb:35 | the count never exceeds the number of titles |
| PrInfo.CountWhere | Dangerfiles/check-pr-info.rb:35 | `count` with a block never exceeds the number of elements |
| PrInfo.CountWhereCountsPositions | Dangerfiles/check-pr-info.rb:35 | `count` with a block is the number of positions whose element satisfies it |
| PrInfo.PrCountAppend | Dangerfiles/check-pr-info.rb:35 | one more title adds one to the count exactly when it carries a number |
| PrInfo.PrCountCountsNumbered | Dangerfiles/check-pr-info.rb:35 | the count is the number of positions whose title carries a pull-request number |
| PrInfo.IsPotentialUmbrella | Dangerfiles/check-pr-info.rb:29-40 | potential umbrella exactly when there are commits and at least half carry a number; none is not |
| PrInfo.HalfOrMore | Dangerfiles/check-pr-info.rb:39 | for a positive count, the quotient is at least 0.5 exactly when twice the numerator reaches the count |
| PrInfo.PotentialUmbrellaThreshold | Dangerfiles/check-pr-info.rb:39 | one numbered title of two is enough, one of three is not, and no titles is not |
| PrInfo.IsUmbrella | Dangerfiles/check-pr-info.rb:46-48 | marked as umbrella exactly when some label equals the umbrella label |
| PrInfo.PotentialUmbrellaWarning | Dangerfiles/check-pr-info.rb:50-54 | the warning appears exactly for a potential umbrella without the umbrella label |
| PrInfo.UmbrellaWarning | Dangerfiles/check-pr-info.rb:56-71 | the warning appears exactly when the label is present, and names the label |
| PrInfo.UmbrellaWarningText | Dangerfiles/check-pr-info.rb:56-71 | the warning starts with its opening words followed by the umbrella label |
| PrInfo.ConcatParts | Dangerfiles/check-pr-info.rb:59 | the first and middle parts of a three-part text are found at their offsets |
| PrInfo.Listed | Dangerfiles/check-pr-info.rb:75-82 | an absent result adds nothing; a present one adds itself |
| PrInfo.CheckPullRequest | Dangerfiles/check-pr-info.rb:75-82 | at most one failure, present exactly for a bad title; at most one warning, present exactly for a labelled or potential umbrella, and the label's warning wins |

## Left out

- UIKit: both `AssistiveTouchViewController` files, the windows, hit testing, animations and keyboard handling. They only drive the manipulator and layout.
- The manipulator called from the current view controller: its source is not part of this model. Only the earlier `AssistiveTouchManipulator` is modelled.
- The `print` in the centre setter. The debug `assert(false, …)` calls are modelled as the release-build early return.
- Floating point: `CGFloat` and the Ruby float division are exact reals. Rounding, NaN and infinity are not modelled, except the 0 / 0.0 NaN of an empty branch, which is modelled as "not an umbrella".
- Manipulator.TouchesEnded, Manipulator.TouchesCancelled: require the layout bounding to be a proper rectangle. When twice the margin exceeds the bounding size, Core Graphics returns the null rectangle, whose infinite edges are not modelled.
- Manipulator.Align, Manipulator.TouchesEnded: flush with the picked side is stated only for a frame of non-negative size. With a negative size, the earlier `aligned` places the raw origin, not the standardized edge.
- Manipulator.SnapEdgeIsNearestSide: stated for a bounding rectangle of non-negative size, which the inset bounds always have.
- `onChange` and `onEntriesChanged` may be nil. The traces record what the callback would receive if set.
- Layouts: `customView` is known only by identity (`ViewRef`). The main screen's bounds and the window's safe-area insets are parameters.
- LoggerStore.Log: the parameters dictionary is represented by its description string (`parameters as AnyObject`); the dictionary itself is not modelled.
- PrInfo.UmbrellaWarning: the ASCII-art "REBASE MERGE" banner is a parameter of the message, not spelled out.
- PrInfo: the `github` object and `git log` are parameters. The title, the raw `git log` output and the label list are passed in. `fail` and `warn` become the two lists of `PrInfo.Report`.
- PrInfo.FormatMessageLines: the requirement that no prefix or description holds a line feed is stated as a precondition rather than checked on the constant table.
- Touches.Equal: Swift compares the identifiers as strings under Unicode canonical equivalence; the model compares character sequences. Both view controllers pass the identifier "pan", for which the two agree.
- `run-swiftlint.rb`, the demo app, the console UI and the build configuration.

## Findings

| source | as written | input that shows it | evidently intended | confidence | as-written member | corrected member |
|---|---|---|---|---|---|---|
| Sources/CBAssistiveTouch/Classes/CGRect+Ext.swift:58 | `aligned(to:at:)` adds the translation's y component to `origin.x`, so `origin.y` never moves and the rectangle reaches a top or bottom edge only if it is already there | a 10x10 rectangle at (0, 0) aligned to `.top` of a rectangle at (0, 5) ends at (5, 0) instead of (0, 5) | add the y component to `origin.y`, so the result is flush with the target's named edges | high; not executed | RectEdges.AlignedAsWritten, RectEdges.AlignedAsWrittenMissesTop | RectEdges.Aligned |

=== FILE: Geometry.dfy ===
/** An optional value, Swift's `Optional`. */
module Optional {

  datatype Option<+T> = None | Some(value: T)

}

/** Core Graphics value types as used by the assistive-touch engine.

    `CGFloat` is modelled as `real` (no rounding, NaN or infinity). A rectangle
    keeps its raw origin and size, as `CGRect` does; the derived edges follow
    Core Graphics' "standardized" reading, so a negative width or height is
    read as extending towards smaller coordinates.
 */
module Geometry {
  import opened Optional

  function Abs(a: real): (r: real)
    ensures r >= 0.0
    ensures r == a || r == -a
  {
    if a < 0.0 then -a else a
  }

  datatype Point = Point(x: real, y: real)

  const Zero := Point(0.0, 0.0)

  datatype Size = Size(width: real, height: real)

  /** An axis-aligned rectangle with its raw origin and size. */
  datatype Rect = Rect(origin: Point, size: Size) {

    function MinX(): real {
      if size.width < 0.0 then origin.x + size.width else origin.x
    }

    function MaxX(): real {
      if size.width < 0.0 then origin.x else origin.x + size.width
    }

    function MinY(): real {
      if size.height < 0.0 then origin.y + size.height else origin.y
    }

    function MaxY(): real {
      if size.height < 0.0 then origin.y else origin.y + size.height
    }

    function MidX(): real {
      origin.x + size.width / 2.0
    }

    function MidY(): real {
      origin.y + size.height / 2.0
    }

    /** `CGRect.width` is the standardized (non-negative) width. */
    function Width(): real {
      Abs(size.width)
    }

    function Height(): real {
      Abs(size.height)
    }
  }

  function MakeRect(x: real, y: real, width: real, height: real): Rect {
    Rect(Point(x, y), Size(width, height))
  }

  predicate NonNegativeSize(r: Rect) {
    r.size.width >= 0.0 && r.size.height >= 0.0
  }

  function Square(a: real): real {
    a * a
  }

  lemma SquareSign(a: real)
    ensures Square(a) >= 0.0
    ensures a != 0.0 ==> Square(a) > 0.0
  {
    if a > 0.0 {
      assert Square(a) / a == a;
    } else if a < 0.0 {
      assert Square(a) / a == a;
    }
  }

  /** `CGPoint.magnitude2`: the squared length of a vector, zero exactly for
      the zero vector. */
  function Magnitude2(p: Point): (m: real)
    ensures m >= 0.0
    ensures m == 0.0 <==> p == Zero
  {
    SquareSign(p.x);
    SquareSign(p.y);
    Square(p.x) + Square(p.y)
  }

  /** The rectangle moved by a vector; its size is untouched. */
  function Offset(r: Rect, t: Point): (o: Rect)
    ensures o.size == r.size
    ensures o.MinX() == r.MinX() + t.x && o.MaxX() == r.MaxX() + t.x
    ensures o.MinY() == r.MinY() + t.y && o.MaxY() == r.MaxY() + t.y
  {
    Rect(Point(r.origin.x + t.x, r.origin.y + t.y), r.size)
  }

  /** `CGRect.insetBy(dx:dy:)`: the standardized rectangle shrunk by `dx` on
      the left and right and by `dy` on the top and bottom, or `None` (the
      null rectangle) when the result would have a negative width or height. */
  function InsetBy(r: Rect, dx: real, dy: real): (o: Option<Rect>)
    ensures o.Some? <==> 2.0 * dx <= r.Width() && 2.0 * dy <= r.Height()
    ensures o.Some? ==> NonNegativeSize(o.value)
    ensures o.Some? ==> o.value.MinX() == r.MinX() + dx && o.value.MaxX() == r.MaxX() - dx
    ensures o.Some? ==> o.value.MinY() == r.MinY() + dy && o.value.MaxY() == r.MaxY() - dy
  {
    var w := r.Width() - 2.0 * dx;
    var h := r.Height() - 2.0 * dy;
    if w < 0.0 || h < 0.0 then None
    else Some(MakeRect(r.MinX() + dx, r.MinY() + dy, w, h))
  }

  /** The midpoint of a rectangle is the mean of its extreme edges, whatever
      the sign of its size. */
  lemma MidIsMeanOfEdges(r: Rect)
    ensures r.MidX() == (r.MinX() + r.MaxX()) / 2.0
    ensures r.MidY() == (r.MinY() + r.MaxY()) / 2.0
    ensures r.MinX() + r.Width() == r.MaxX() && r.MinY() + r.Height() == r.MaxY()
  {
  }
}

=== FILE: Layouts.dfy ===
/** The default layouts of the floating button: how long its animations
    take, how far it keeps from the edges, how big it is and where it first
    appears. The current layout is a mutable class whose defaults are set at
    construction; the earlier one is a structure of constants. */
module Layouts {
  import opened Optional
  import opened Geometry
  import Legacy = LegacyRectEdges

  /** `UIEdgeInsets`. */
  datatype Insets = Insets(top: real, left: real, bottom: real, right: real)

  const ZeroInsets := Insets(0.0, 0.0, 0.0, 0.0)

  /** A view supplied by the host application, known only by identity. */
  datatype ViewRef = ViewRef(id: nat)

  /** The stored properties of `DefaultAssistiveTouchLayout`. */
  datatype DefaultLayout = DefaultLayout(
    customView: Option<ViewRef>,
    animationDuration: real,
    margin: real,
    size: Size,
    safeAreaInsets: Insets)

  /** `init(safeAreaInsets:)`: the given insets, no custom view, a quarter of
      a second per animation, a margin of 20 points and a 60x60 button. */
  function WithSafeArea(insets: Insets): (l: DefaultLayout)
    ensures l.safeAreaInsets == insets
    ensures l.customView.None?
    ensures l.animationDuration == 0.25 && l.margin == 20.0 && l.size == Size(60.0, 60.0)
  {
    DefaultLayout(None, 0.25, 20.0, Size(60.0, 60.0), insets)
  }

  /** `init(applicationWindow:)`: the window's safe-area insets, or zero
      insets when there is no window. `window` holds the insets the window
      reports, when there is one. */
  function WithApplicationWindow(window: Option<Insets>): (l: DefaultLayout)
    ensures window.None? ==> l.safeAreaInsets == ZeroInsets
    ensures window.Some? ==> l.safeAreaInsets == window.value
    ensures l == WithSafeArea(l.safeAreaInsets)
  {
    WithSafeArea(match window case None => ZeroInsets case Some(i) => i)
  }

  /** The centre that puts a button of the given size against the right-hand
      side of the screen, `margin` points in, halfway down. */
  function RightHandPosition(screen: Rect, size: Size, margin: real): (p: Point)
    ensures p.x + size.width / 2.0 == screen.Width() - margin
    ensures p.y == screen.MidY()
  {
    Point(screen.Width() - size.width / 2.0 - margin, screen.MidY())
  }

  /** `assistiveTouchInitialPosition`, read against the main screen's bounds
      and the layout's current size and margin: the button's right edge sits
      `margin` inside the screen width, its centre halfway down. */
  function InitialPosition(l: DefaultLayout, screen: Rect): (p: Point)
    ensures p.x + l.size.width / 2.0 == screen.Width() - l.margin
    ensures p.y == screen.MidY()
  {
    RightHandPosition(screen, l.size, l.margin)
  }

  /** The constants of the earlier `DefaultAssitiveTouchLayout`. */
  const LegacyAnimationDuration: real := 0.25
  const LegacyMargin: real := 2.0
  const LegacySize := Size(60.0, 60.0)

  /** The earlier `assitiveTouchInitialPosition`. */
  function LegacyInitialPosition(screen: Rect): (p: Point)
    ensures p == Point(screen.Width() - 32.0, screen.MidY())
  {
    RightHandPosition(screen, LegacySize, LegacyMargin)
  }

  /** The earlier layout has the current defaults' animation duration and
      button size; only its margin differs, a tenth of the current one. */
  lemma LegacyLayoutDiffersOnlyInMargin(insets: Insets)
    ensures WithSafeArea(insets).animationDuration == LegacyAnimationDuration
    ensures WithSafeArea(insets).size == LegacySize
    ensures WithSafeArea(insets).margin == 10.0 * LegacyMargin
  {
  }

  /** The rectangle of the given size centred at `c`. */
  function CentredAt(c: Point, size: Size): (r: Rect)
    ensures r.size == size
    ensures r.MidX() == c.x && r.MidY() == c.y
  {
    Rect(Point(c.x - size.width / 2.0, c.y - size.height / 2.0), size)
  }

  /** For a screen whose bounds start at the origin, the initial position is
      already where snapping to the right-hand side of the screen inset by
      the margin puts the button: aligning it there does not move it. */
  lemma InitialPositionIsRightSnapped(screen: Rect, size: Size, margin: real)
    requires screen.origin == Zero && NonNegativeSize(screen) && size.width >= 0.0
    requires 2.0 * margin <= screen.Width() && 2.0 * margin <= screen.Height()
    ensures var frame := CentredAt(RightHandPosition(screen, size, margin), size);
            var lb := InsetBy(screen, margin, margin);
            && lb.Some?
            && Legacy.Aligned(frame, lb.value, Legacy.Right) == frame
            && Legacy.Flush(frame, lb.value, Legacy.Right)
  {
  }

  /** With the default 60x60 button and 20-point margin, a 390x844 screen
      puts the button's centre at (340, 422). */
  lemma DefaultInitialPositionExample()
    ensures InitialPosition(WithApplicationWindow(None), MakeRect(0.0, 0.0, 390.0, 844.0))
         == Point(340.0, 422.0)
  {
  }
}

=== FILE: LegacyRectEdges.dfy ===
/** The earlier rectangle helper: four sides, and alignment that sets one
    origin coordinate absolutely. */
module LegacyRectEdges {
  import opened Geometry

  datatype Edge = Top | Left | Bottom | Right

  predicate IsHorizontal(e: Edge) {
    e == Top || e == Bottom
  }

  /** The side of `r` that `e` names lies on the same side of `target`. */
  predicate Flush(r: Rect, target: Rect, e: Edge) {
    match e
    case Top => r.MinY() == target.MinY()
    case Left => r.MinX() == target.MinX()
    case Bottom => r.MaxY() == target.MaxY()
    case Right => r.MaxX() == target.MaxX()
  }

  /** `aligned(to:at:)`: moves `r` along one axis only, keeping its size, so
      that its raw near edge (top, left) or raw far edge (bottom, right) lands
      on the matching edge of `target`. */
  function Aligned(r: Rect, target: Rect, e: Edge): (o: Rect)
    ensures o.size == r.size
    ensures IsHorizontal(e) ==> o.origin.x == r.origin.x
    ensures !IsHorizontal(e) ==> o.origin.y == r.origin.y
    ensures e == Top ==> o.origin.y == target.MinY()
    ensures e == Left ==> o.origin.x == target.MinX()
    ensures e == Bottom ==> o.origin.y + o.size.height == target.MaxY()
    ensures e == Right ==> o.origin.x + o.size.width == target.MaxX()
  {
    match e
    case Top => Rect(Point(r.origin.x, target.MinY()), r.size)
    case Left => Rect(Point(target.MinX(), r.origin.y), r.size)
    case Bottom => Rect(Point(r.origin.x, target.MaxY() - r.size.height), r.size)
    case Right => Rect(Point(target.MaxX() - r.size.width, r.origin.y), r.size)
  }

  /** For a rectangle of non-negative size, the aligned rectangle is flush
      with `target` on the chosen side. */
  lemma AlignedIsFlush(r: Rect, target: Rect, e: Edge)
    requires NonNegativeSize(r)
    ensures Flush(Aligned(r, target, e), target, e)
  {
  }

  /** Aligning twice to the same side is the same as aligning once. */
  lemma AlignedIsIdempotent(r: Rect, target: Rect, e: Edge)
    ensures Aligned(Aligned(r, target, e), target, e) == Aligned(r, target, e)
  {
  }

  /** Aligning to a horizontal side and to a vertical side commute. */
  lemma AlignedAxesCommute(r: Rect, target: Rect, h: Edge, v: Edge)
    requires IsHorizontal(h) && !IsHorizontal(v)
    ensures Aligned(Aligned(r, target, h), target, v) == Aligned(Aligned(r, target, v), target, h)
  {
  }
}

=== FILE: LoggerStore.dfy ===
/** The in-memory log store behind the logger window. Each mutation replaces
    the entries and then hands the new entries to `onEntriesChanged`;
    `notifications` lists, oldest first, every value handed over. */
module LoggerStore {
  import opened Optional

  datatype Logger = Logger(entries: seq<string>, notifications: seq<seq<string>>)

  /** `init(entries:)`: the given entries, nothing handed over yet. */
  function New(entries: seq<string>): (l: Logger)
    ensures l.entries == entries && l.notifications == []
  {
    Logger(entries, [])
  }

  /** One mutation: the new entries become current and are handed over once. */
  function Publish(l: Logger, entries: seq<string>): (r: Logger)
    ensures r.entries == entries
    ensures r.notifications == l.notifications + [entries]
  {
    Logger(entries, l.notifications + [entries])
  }

  /** `append(_:)`: the entry goes last, the earlier entries keep their
      order, and the new list is handed over once. */
  function Append(l: Logger, entry: string): (r: Logger)
    ensures |r.entries| == |l.entries| + 1
    ensures r.entries[..|l.entries|] == l.entries && r.entries[|l.entries|] == entry
    ensures r.notifications == l.notifications + [r.entries]
  {
    Publish(l, l.entries + [entry])
  }

  /** `replaceAll(with:)`. */
  function ReplaceAll(l: Logger, entries: seq<string>): (r: Logger)
    ensures r.entries == entries
    ensures r.notifications == l.notifications + [entries]
  {
    Publish(l, entries)
  }

  /** `clear()`: no entries remain, and the empty list is handed over. */
  function Clear(l: Logger): (r: Logger)
    ensures r.entries == []
    ensures r.notifications == l.notifications + [[]]
  {
    Publish(l, [])
  }

  /** Clearing is replacing with the empty list. */
  lemma ClearIsReplaceWithNothing(l: Logger)
    ensures Clear(l) == ReplaceAll(l, [])
  {
  }

  /** Replacing twice with the same entries leaves the same entries, and
      hands them over twice. */
  lemma ReplaceAllTwice(l: Logger, entries: seq<string>)
    ensures ReplaceAll(ReplaceAll(l, entries), entries).entries == ReplaceAll(l, entries).entries
    ensures |ReplaceAll(ReplaceAll(l, entries), entries).notifications| == |l.notifications| + 2
  {
  }

  /** The text `log(event:parameters:)` appends: the event alone without
      parameters, otherwise the event, one space and the description of the
      parameters. `parameters` is that description, when there are any. */
  function EventText(event: string, parameters: Option<string>): (s: string)
    ensures parameters.None? ==> s == event
    ensures parameters.Some? ==> |s| == |event| + 1 + |parameters.value|
  {
    match parameters
    case None => event
    case Some(description) => event + " " + description
  }

  /** The appended text can be taken apart again: it starts with the event,
      and with parameters the description follows one space later. */
  lemma EventTextSplits(event: string, parameters: Option<string>)
    ensures EventText(event, parameters)[..|event|] == event
    ensures parameters.Some? ==>
              && EventText(event, parameters)[|event|] == ' '
              && EventText(event, parameters)[|event| + 1..] == parameters.value
  {
  }

  /** `log(event:parameters:)`: appends the event text. */
  function Log(l: Logger, event: string, parameters: Option<string>): (r: Logger)
    ensures |r.entries| == |l.entries| + 1
    ensures r.entries[..|l.entries|] == l.entries
    ensures |event| <= |r.entries[|l.entries|]| && r.entries[|l.entries|][..|event|] == event
    ensures parameters.None? ==> r.entries[|l.entries|] == event
    ensures r.notifications == l.notifications + [r.entries]
  {
    EventTextSplits(event, parameters);
    Append(l, EventText(event, parameters))
  }

  /** Appending entries one at a time, in order. */
  function AppendAll(l: Logger, entries: seq<string>): Logger
    decreases |entries|
  {
    if |entries| == 0 then l else AppendAll(Append(l, entries[0]), entries[1..])
  }

  /** Appending entries one by one leaves them after the earlier entries in
      the same order, and hands over one list per entry, the last being the
      final entries. */
  lemma {:induction false} AppendAllConcatenates(l: Logger, entries: seq<string>)
    ensures AppendAll(l, entries).entries == l.entries + entries
    ensures |AppendAll(l, entries).notifications| == |l.notifications| + |entries|
    ensures AppendAll(l, entries).notifications[..|l.notifications|] == l.notifications
    ensures |entries| > 0 ==> AppendAll(l, entries).notifications[|l.notifications| + |entries| - 1]
                              == l.entries + entries
    decreases |entries|
  {
    if |entries| > 0 {
      var next := Append(l, entries[0]);
      AppendAllConcatenates(next, entries[1..]);
      assert next.entries + entries[1..] == l.entries + entries;
      assert next.notifications[..|l.notifications|] == l.notifications;
    }
  }

  /** Replacing with entries gives the same entries as clearing and then
      appending them one by one; the two differ only in how many lists are
      handed over. */
  lemma ReplaceAllIsClearThenAppend(l: Logger, entries: seq<string>)
    ensures AppendAll(Clear(l), entries).entries == ReplaceAll(l, entries).entries
  {
    AppendAllConcatenates(Clear(l), entries);
  }
}

=== FILE: Manipulator.dfy ===
/** The drag manipulator of the floating button (the earlier
    `AssistiveTouchManipulator`): it moves the button's frame with the touch
    and, when the touch ends or is cancelled, snaps the frame to one side of
    the bounding rectangle inset by the layout margin.

    A session is a value; each operation returns the next session. The
    `changes` field lists, oldest first, every value assigned to the frame:
    the frame's `didSet` observer hands exactly these values to `onChange`. */
module Manipulator {
  import opened Optional
  import opened Geometry
  import opened Quadrants
  import opened Touches
  import Legacy = LegacyRectEdges

  datatype Session = Session(
    frame: Rect,
    bounding: Rect,
    margin: real,
    prevPoint: Option<Point>,
    changes: seq<Rect>)

  /** `init(assistiveTouchFrame:bounding:layout:)`, with the layout reduced to
      its margin. Assignments in an initialiser do not trigger `didSet`. */
  function New(frame: Rect, bounding: Rect, margin: real): (s: Session)
    ensures s.frame == frame && s.bounding == bounding && s.margin == margin
    ensures s.prevPoint.None? && s.changes == []
  {
    Session(frame, bounding, margin, None, [])
  }

  /** An assignment to the frame: the new value is recorded once. */
  function SetFrame(s: Session, frame: Rect): (r: Session)
    ensures r.frame == frame && r.changes == s.changes + [frame]
    ensures r.bounding == s.bounding && r.margin == s.margin && r.prevPoint == s.prevPoint
  {
    s.(frame := frame, changes := s.changes + [frame])
  }

  /** The getter of `center`: halfway between the frame's extreme edges on
      each axis. */
  function Center(s: Session): (c: Point)
    ensures c.x == (s.frame.MinX() + s.frame.MaxX()) / 2.0
    ensures c.y == (s.frame.MinY() + s.frame.MaxY()) / 2.0
  {
    MidIsMeanOfEdges(s.frame);
    Point(s.frame.MidX(), s.frame.MidY())
  }

  /** The setter of `center`: the frame keeps its size and, when its size is
      non-negative, its midpoint becomes `c`. The setter offsets by half the
      standardized size, so a negatively sized frame lands elsewhere. */
  function SetCenter(s: Session, c: Point): (r: Session)
    ensures r.frame.size == s.frame.size
    ensures NonNegativeSize(s.frame) ==> Center(r) == c
    ensures r.changes == s.changes + [r.frame]
    ensures r.bounding == s.bounding && r.margin == s.margin && r.prevPoint == s.prevPoint
  {
    var f := s.frame;
    SetFrame(s, Rect(Point(c.x - f.Width() / 2.0, c.y - f.Height() / 2.0), f.size))
  }

  /** `layoutBounding`: the bounding rectangle inset by the margin on all four
      sides, or `None` when the margin does not fit (Core Graphics' null
      rectangle). */
  function LayoutBounding(s: Session): (lb: Option<Rect>)
    ensures lb.Some? <==> 2.0 * s.margin <= s.bounding.Width() && 2.0 * s.margin <= s.bounding.Height()
    ensures lb.Some? ==> NonNegativeSize(lb.value)
    ensures lb.Some? ==>
              && lb.value.MinX() == s.bounding.MinX() + s.margin
              && lb.value.MaxX() == s.bounding.MaxX() - s.margin
              && lb.value.MinY() == s.bounding.MinY() + s.margin
              && lb.value.MaxY() == s.bounding.MaxY() - s.margin
  {
    InsetBy(s.bounding, s.margin, s.margin)
  }

  /** The layout bounding is an ordinary rectangle, so snapping is defined. */
  predicate CanAlign(s: Session) {
    LayoutBounding(s).Some?
  }

  /** Whether `move(with:)` gets past its guard. */
  ghost predicate CanMove(s: Session, touches: set<Touch>) {
    touches != {} && s.prevPoint.Some?
  }

  /** `move(with:)`. Without a touch or a previous point (an assertion failure
      in debug builds) nothing changes. Otherwise the centre moves by the
      offset between the touch and the previous point, the frame is assigned
      once, and the touch becomes the previous point. */
  ghost function Move(s: Session, touches: set<Touch>): (r: Session)
    ensures !CanMove(s, touches) ==> r == s
    ensures CanMove(s, touches) ==>
              && r.prevPoint == Some(First(touches).value.point)
              && r.frame.size == s.frame.size
              && r.changes == s.changes + [r.frame]
              && (NonNegativeSize(s.frame) ==>
                    Center(r) == Point(Center(s).x + (r.prevPoint.value.x - s.prevPoint.value.x),
                                       Center(s).y + (r.prevPoint.value.y - s.prevPoint.value.y)))
    ensures r.bounding == s.bounding && r.margin == s.margin
  {
    match (First(touches), s.prevPoint)
    case (Some(touch), Some(prev)) =>
      var c := Center(s);
      var moved := SetCenter(s, Point(c.x + (touch.point.x - prev.x), c.y + (touch.point.y - prev.y)));
      moved.(prevPoint := Some(touch.point))
    case _ => s
  }

  /** How far the point `c` is from the side `e` of `lb`, measured across
      that side. */
  function SideDistance(c: Point, lb: Rect, e: Legacy.Edge): real {
    match e
    case Top => Abs(lb.MinY() - c.y)
    case Left => Abs(lb.MinX() - c.x)
    case Bottom => Abs(lb.MaxY() - c.y)
    case Right => Abs(lb.MaxX() - c.x)
  }

  /** The side `align(to:)` picks for a frame centred at `c`: of the two
      sides that bound the centre's quadrant, the vertical one (left or right)
      only when it is strictly nearer. */
  function SnapEdge(c: Point, lb: Rect): (e: Legacy.Edge)
    ensures QuadrantOf(c, lb) == I ==> e == Legacy.Right || e == Legacy.Top
    ensures QuadrantOf(c, lb) == II ==> e == Legacy.Left || e == Legacy.Top
    ensures QuadrantOf(c, lb) == III ==> e == Legacy.Left || e == Legacy.Bottom
    ensures QuadrantOf(c, lb) == IV ==> e == Legacy.Right || e == Legacy.Bottom
    ensures !Legacy.IsHorizontal(e) ==>
              SideDistance(c, lb, e) < SideDistance(c, lb, if c.y <= lb.MidY() then Legacy.Top else Legacy.Bottom)
  {
    match QuadrantOf(c, lb)
    case I =>
      if Abs(lb.MaxX() - c.x) < Abs(lb.MinY() - c.y) then Legacy.Right else Legacy.Top
    case II =>
      if Abs(lb.MinX() - c.x) < Abs(lb.MinY() - c.y) then Legacy.Left else Legacy.Top
    case III =>
      if Abs(lb.MinX() - c.x) < Abs(lb.MaxY() - c.y) then Legacy.Left else Legacy.Bottom
    case IV =>
      if Abs(lb.MaxX() - c.x) < Abs(lb.MaxY() - c.y) then Legacy.Right else Legacy.Bottom
  }

  /** For a bounding rectangle of non-negative size the picked side is a
      nearest of all four sides to the centre, and a vertical side is picked
      only when it is strictly nearer than both horizontal ones. */
  lemma SnapEdgeIsNearestSide(c: Point, lb: Rect)
    requires NonNegativeSize(lb)
    ensures forall e :: SideDistance(c, lb, SnapEdge(c, lb)) <= SideDistance(c, lb, e)
    ensures !Legacy.IsHorizontal(SnapEdge(c, lb)) ==>
              SideDistance(c, lb, SnapEdge(c, lb)) < SideDistance(c, lb, Legacy.Top)
              && SideDistance(c, lb, SnapEdge(c, lb)) < SideDistance(c, lb, Legacy.Bottom)
  {
    MidIsMeanOfEdges(lb);
    var e := SnapEdge(c, lb);
    assert c.x >= lb.MidX() ==> SideDistance(c, lb, Legacy.Right) <= SideDistance(c, lb, Legacy.Left);
    assert c.x < lb.MidX() ==> SideDistance(c, lb, Legacy.Left) <= SideDistance(c, lb, Legacy.Right);
    assert c.y <= lb.MidY() ==> SideDistance(c, lb, Legacy.Top) <= SideDistance(c, lb, Legacy.Bottom);
    assert c.y > lb.MidY() ==> SideDistance(c, lb, Legacy.Bottom) <= SideDistance(c, lb, Legacy.Top);
  }

  /** `align(to:)`: the frame is aligned to the side `SnapEdge` picks for its
      centre and assigned once, whether or not it moved. */
  function Align(s: Session, lb: Rect): (r: Session)
    ensures r.frame.size == s.frame.size
    ensures Legacy.IsHorizontal(SnapEdge(Center(s), lb)) ==> r.frame.origin.x == s.frame.origin.x
    ensures !Legacy.IsHorizontal(SnapEdge(Center(s), lb)) ==> r.frame.origin.y == s.frame.origin.y
    ensures NonNegativeSize(s.frame) ==> Legacy.Flush(r.frame, lb, SnapEdge(Center(s), lb))
    ensures r.changes == s.changes + [r.frame]
    ensures r.prevPoint == s.prevPoint && r.bounding == s.bounding && r.margin == s.margin
  {
    SetFrame(s, Legacy.Aligned(s.frame, lb, SnapEdge(Center(s), lb)))
  }

  /** `touchesBegan`: records the point of a touch of the set; an empty set
      (an assertion failure in debug builds) changes nothing. The frame is
      never assigned. */
  ghost function TouchesBegan(s: Session, touches: set<Touch>): (r: Session)
    ensures touches == {} ==> r == s
    ensures touches != {} ==> r.prevPoint.Some? && exists t :: t in touches && t.point == r.prevPoint.value
    ensures r.frame == s.frame && r.changes == s.changes
    ensures r.bounding == s.bounding && r.margin == s.margin
  {
    match First(touches)
    case None => s
    case Some(touch) => s.(prevPoint := Some(touch.point))
  }

  /** `touchesMoved`: without a touch or a previous point nothing changes.
      Otherwise the point of one of the touches becomes the previous point,
      the frame keeps its size and is assigned once, and a frame of
      non-negative size has its centre displaced by the offset from the old
      previous point to the new one. */
  ghost function TouchesMoved(s: Session, touches: set<Touch>): (r: Session)
    ensures !CanMove(s, touches) ==> r == s
    ensures CanMove(s, touches) ==>
              && r.prevPoint.Some?
              && (exists t :: t in touches && t.point == r.prevPoint.value)
              && r.frame.size == s.frame.size
              && r.changes == s.changes + [r.frame]
              && (NonNegativeSize(s.frame) ==>
                    Center(r) == Point(Center(s).x + (r.prevPoint.value.x - s.prevPoint.value.x),
                                       Center(s).y + (r.prevPoint.value.y - s.prevPoint.value.y)))
    ensures r.bounding == s.bounding && r.margin == s.margin
  {
    Move(s, touches)
  }

  /** `touchesEnded`: the move, then the snap to the layout bounding. The
      frame is assigned twice after a successful move and once after a failed
      one; the snap moves the frame along one axis only, and the final value
      is flush with the picked side. */
  ghost function TouchesEnded(s: Session, touches: set<Touch>): (r: Session)
    requires CanAlign(s)
    ensures var moved := Move(s, touches);
            && r.prevPoint == moved.prevPoint
            && r.frame.size == s.frame.size
            && (Legacy.IsHorizontal(SnapEdge(Center(moved), LayoutBounding(s).value)) ==>
                  r.frame.origin.x == moved.frame.origin.x)
            && (!Legacy.IsHorizontal(SnapEdge(Center(moved), LayoutBounding(s).value)) ==>
                  r.frame.origin.y == moved.frame.origin.y)
            && r.changes == moved.changes + [r.frame]
            && |r.changes| == |s.changes| + (if CanMove(s, touches) then 2 else 1)
            && (NonNegativeSize(s.frame) ==>
                  Legacy.Flush(r.frame, LayoutBounding(s).value, SnapEdge(Center(moved), LayoutBounding(s).value)))
    ensures r.bounding == s.bounding && r.margin == s.margin
  {
    Align(Move(s, touches), LayoutBounding(s).value)
  }

  /** `touchesCancelled` behaves exactly as `touchesEnded`. */
  ghost function TouchesCancelled(s: Session, touches: set<Touch>): (r: Session)
    requires CanAlign(s)
    ensures r == TouchesEnded(s, touches)
  {
    Align(Move(s, touches), LayoutBounding(s).value)
  }

  /** A drag: one `touchesMoved` per point, each with a single sample of the
      contact `id`. */
  ghost function Drag(s: Session, id: string, points: seq<Point>): Session
    decreases |points|
  {
    if |points| == 0 then s
    else Drag(TouchesMoved(s, {Touch(id, points[0])}), id, points[1..])
  }

  function LastOr(points: seq<Point>, default: Point): Point {
    if |points| == 0 then default else points[|points| - 1]
  }

  /** Path independence: however many moves a drag takes, the centre ends up
      displaced by the offset from the previous point to the last point, the
      last point becomes the previous point, and each move assigns the frame
      once. */
  lemma {:induction false} DragMovesCentreByNetOffset(s: Session, id: string, points: seq<Point>)
    requires s.prevPoint.Some? && NonNegativeSize(s.frame)
    ensures var r := Drag(s, id, points);
            var last := LastOr(points, s.prevPoint.value);
            && r.prevPoint == Some(last)
            && r.frame.size == s.frame.size
            && Center(r) == Point(Center(s).x + (last.x - s.prevPoint.value.x),
                                  Center(s).y + (last.y - s.prevPoint.value.y))
            && |r.changes| == |s.changes| + |points|
    decreases |points|
  {
    if |points| > 0 {
      FirstOfSingleton(Touch(id, points[0]));
      var next := TouchesMoved(s, {Touch(id, points[0])});
      assert next.prevPoint == Some(points[0]);
      DragMovesCentreByNetOffset(next, id, points[1..]);
      assert LastOr(points[1..], points[0]) == LastOr(points, s.prevPoint.value);
    }
  }

  /** A gesture that begins at `p0` and moves through `points` displaces the
      centre by the offset from `p0` to the last point. */
  lemma BeganThenDragged(s: Session, id: string, p0: Point, points: seq<Point>)
    requires NonNegativeSize(s.frame)
    ensures var r := Drag(TouchesBegan(s, {Touch(id, p0)}), id, points);
            var last := LastOr(points, p0);
            && Center(r) == Point(Center(s).x + (last.x - p0.x), Center(s).y + (last.y - p0.y))
            && r.prevPoint == Some(last)
            && |r.changes| == |s.changes| + |points|
  {
    FirstOfSingleton(Touch(id, p0));
    DragMovesCentreByNetOffset(TouchesBegan(s, {Touch(id, p0)}), id, points);
  }

  /** A touch that begins at (10, 10) and moves to (15, 12) moves a frame
      centred at (50, 50) to be centred at (55, 52). */
  lemma BeganThenMovedExample(id: string)
    ensures var s := New(MakeRect(20.0, 20.0, 60.0, 60.0), MakeRect(0.0, 0.0, 300.0, 400.0), 2.0);
            var r := TouchesMoved(TouchesBegan(s, {Touch(id, Point(10.0, 10.0))}), {Touch(id, Point(15.0, 12.0))});
            Center(r) == Point(55.0, 52.0) && r.changes == [r.frame]
  {
    var s := New(MakeRect(20.0, 20.0, 60.0, 60.0), MakeRect(0.0, 0.0, 300.0, 400.0), 2.0);
    BeganThenDragged(s, id, Point(10.0, 10.0), [Point(15.0, 12.0)]);
    assert Drag(TouchesBegan(s, {Touch(id, Point(10.0, 10.0))}), id, [Point(15.0, 12.0)])
        == TouchesMoved(TouchesBegan(s, {Touch(id, Point(10.0, 10.0))}), {Touch(id, Point(15.0, 12.0))});
  }

  /** A 60x60 frame centred at (130, 210) in a 300x400 rectangle lies in
      quadrant III and is nearer the left side (130) than the bottom (190), so
      it snaps to the left side. */
  lemma SnapToLeftExample()
    ensures var s := New(MakeRect(100.0, 180.0, 60.0, 60.0), MakeRect(0.0, 0.0, 300.0, 400.0), 0.0);
            Align(s, MakeRect(0.0, 0.0, 300.0, 400.0)).frame == MakeRect(0.0, 180.0, 60.0, 60.0)
  {
    var s := New(MakeRect(100.0, 180.0, 60.0, 60.0), MakeRect(0.0, 0.0, 300.0, 400.0), 0.0);
    assert QuadrantOf(Center(s), MakeRect(0.0, 0.0, 300.0, 400.0)) == III;
  }

  /** Snapping is not a fixed point: a 60x60 frame at (265, -10) in a 300x400
      rectangle is centred in quadrant I, 5 from the right side and 20 from
      the top, so it snaps right to x = 240. Centred at (270, 20) it is now 30
      from the right side and 20 from the top, so a second snap moves it up
      to y = 0. */
  lemma SnapIsNotAFixedPoint()
    ensures var lb := MakeRect(0.0, 0.0, 300.0, 400.0);
            var once := Align(New(MakeRect(265.0, -10.0, 60.0, 60.0), lb, 0.0), lb);
            && once.frame == MakeRect(240.0, -10.0, 60.0, 60.0)
            && Align(once, lb).frame == MakeRect(240.0, 0.0, 60.0, 60.0)
  {
    var lb := MakeRect(0.0, 0.0, 300.0, 400.0);
    var s := New(MakeRect(265.0, -10.0, 60.0, 60.0), lb, 0.0);
    assert QuadrantOf(Center(s), lb) == I;
    var once := Align(s, lb);
    assert once.frame == MakeRect(240.0, -10.0, 60.0, 60.0);
    assert QuadrantOf(Center(once), lb) == I;
  }
}

=== FILE: PrInfo.dfy ===
/** The pull-request checks run by Danger: the title must start with one of
    the conventional-commit prefixes, and a branch whose commits mostly carry
    a pull-request number is flagged as an "umbrella" branch.

    Strings are sequences of characters; Ruby's regular expressions are
    written out as predicates saying where a match starts and ends (the
    `...At` predicates) next to the functions that search for one. In Ruby
    `^` matches at the start of the string and after every line feed, and
    `$` at the end of the string and before every line feed. */
module PrInfo {
  import opened Optional

  /** The keys of `$PREFIXES`, as strings, in insertion order. */
  const PrefixKeys: seq<string> :=
    ["build", "ci", "docs", "feat", "fix", "perf", "refactor", "style", "test"]

  /** The values of `$PREFIXES`, in the same order. */
  const PrefixDescriptions: seq<string> := [
    "Changes that affect the build system or external dependencies (example scopes: gulp, broccoli, npm)",
    "Changes to our CI configuration files and scripts (example scopes: Travis, Circle, BrowserStack, SauceLabs)",
    "Documentation only changes",
    "A new feature",
    "A bug fix",
    "A code change that improves performance",
    "A code change that neither fixes a bug nor adds a feature",
    "Changes that do not affect the meaning of the code (white-space, formatting, missing semi-colons, etc)",
    "Adding missing tests or correcting existing tests"
  ]

  /** `$PREFIXES`: each prefix with its description. */
  function Prefixes(): seq<(string, string)> {
    seq(|PrefixKeys|, i requires 0 <= i < |PrefixKeys| => (PrefixKeys[i], PrefixDescriptions[i]))
  }

  /** The table pairs each key with the description at the same position,
      in insertion order. */
  lemma PrefixesPairKeysWithDescriptions()
    ensures |Prefixes()| == |PrefixKeys| == |PrefixDescriptions|
    ensures forall i :: 0 <= i < |Prefixes()| ==> Prefixes()[i] == (PrefixKeys[i], PrefixDescriptions[i])
  {
  }

  // ---------------------------------------------------------------------
  // Lines

  /** Splits at every line feed, keeping empty pieces: n line feeds give
      n + 1 pieces. */
  function SplitLines(s: string): (lines: seq<string>)
    ensures |lines| >= 1
    ensures forall i :: 0 <= i < |lines| ==> '\n' !in lines[i]
    decreases |s|
  {
    if |s| == 0 then [""]
    else
      var rest := SplitLines(s[1..]);
      if s[0] == '\n' then [""] + rest
      else [[s[0]] + rest[0]] + rest[1..]
  }

  /** `join("\n")`. */
  function JoinLines(lines: seq<string>): string
    decreases |lines|
  {
    if |lines| == 0 then ""
    else if |lines| == 1 then lines[0]
    else lines[0] + "\n" + JoinLines(lines[1..])
  }

  /** Joining the pieces of a split gives back the string. */
  lemma {:induction false} JoinSplitLines(s: string)
    ensures JoinLines(SplitLines(s)) == s
    decreases |s|
  {
    if |s| > 0 {
      var rest := SplitLines(s[1..]);
      JoinSplitLines(s[1..]);
      if s[0] == '\n' {
        assert SplitLines(s) == [""] + rest;
        assert s == "" + "\n" + s[1..];
      } else {
        var lines := SplitLines(s);
        assert lines == [[s[0]] + rest[0]] + rest[1..];
        if |rest| == 1 {
          assert s == [s[0]] + s[1..];
        } else {
          assert rest == [rest[0]] + rest[1..];
          assert JoinLines(rest) == rest[0] + "\n" + JoinLines(rest[1..]);
          assert lines[1..] == rest[1..];
          assert s == [s[0]] + s[1..];
        }
      }
    }
  }

  /** A line without a line feed followed by a line feed and more text splits
      into that line and the pieces of the rest. */
  lemma {:induction false} SplitLinesAfterLine(a: string, b: string)
    requires '\n' !in a
    ensures SplitLines(a + "\n" + b) == [a] + SplitLines(b)
    decreases |a|
  {
    if |a| == 0 {
      assert a + "\n" + b == "\n" + b;
      assert ("\n" + b)[1..] == b;
    } else {
      assert (a + "\n" + b)[1..] == a[1..] + "\n" + b;
      SplitLinesAfterLine(a[1..], b);
      assert [a[0]] + a[1..] == a;
    }
  }

  /** A text without line feeds is a single piece. */
  lemma {:induction false} SplitLinesOfLine(a: string)
    requires '\n' !in a
    ensures SplitLines(a) == [a]
    decreases |a|
  {
    if |a| > 0 {
      SplitLinesOfLine(a[1..]);
      assert [a[0]] + a[1..] == a;
    }
  }

  /** Splitting joined lines gives back the lines, provided none of them
      holds a line feed. */
  lemma {:induction false} SplitJoinLines(lines: seq<string>)
    requires |lines| >= 1
    requires forall i :: 0 <= i < |lines| ==> '\n' !in lines[i]
    ensures SplitLines(JoinLines(lines)) == lines
    decreases |lines|
  {
    if |lines| == 1 {
      SplitLinesOfLine(lines[0]);
    } else {
      SplitJoinLines(lines[1..]);
      SplitLinesAfterLine(lines[0], JoinLines(lines[1..]));
      assert lines == [lines[0]] + lines[1..];
    }
  }

  // ---------------------------------------------------------------------
  // The title prefix: /^([a-z]+): /

  predicate IsLower(c: char) {
    'a' <= c <= 'z'
  }

  predicate AllLower(w: string) {
    forall i :: 0 <= i < |w| ==> IsLower(w[i])
  }

  /** Ruby's `^`: the start of the string or just after a line feed. */
  predicate AtLineStart(s: string, p: nat) {
    p <= |s| && (p == 0 || s[p - 1] == '\n')
  }

  /** The pattern matches at `p` with `w` as its capture: a line starts at
      `p`, and `w`, a non-empty run of lower-case letters, follows, then a
      colon and a space. */
  predicate PrefixMatchAt(s: string, p: nat, w: string) {
    && AtLineStart(s, p)
    && |w| >= 1 && AllLower(w)
    && p + |w| + 2 <= |s|
    && s[p..p + |w|] == w
    && s[p + |w|] == ':' && s[p + |w| + 1] == ' '
  }

  /** The length of the longest run of lower-case letters starting at `p`. */
  function LetterRun(s: string, p: nat): (n: nat)
    requires p <= |s|
    ensures p + n <= |s|
    ensures forall i :: p <= i < p + n ==> IsLower(s[i])
    ensures p + n < |s| ==> !IsLower(s[p + n])
    decreases |s| - p
  {
    if p < |s| && IsLower(s[p]) then 1 + LetterRun(s, p + 1) else 0
  }

  /** A run of letters that ends where the letters end is the longest run. */
  lemma {:induction false} LetterRunIs(s: string, p: nat, n: nat)
    requires p + n <= |s|
    requires forall i :: p <= i < p + n ==> IsLower(s[i])
    requires p + n < |s| ==> !IsLower(s[p + n])
    ensures LetterRun(s, p) == n
    decreases n
  {
    if n > 0 {
      LetterRunIs(s, p + 1, n - 1);
    }
  }

  /** The capture the pattern reports when matching at `p`: the greedy run
      of letters, provided a colon and a space follow it. */
  function CaptureAt(s: string, p: nat): (c: Option<string>)
    requires p <= |s|
    ensures c.Some? ==> PrefixMatchAt(s, p, c.value)
  {
    var n := LetterRun(s, p);
    if AtLineStart(s, p) && n >= 1 && p + n + 2 <= |s| && s[p + n] == ':' && s[p + n + 1] == ' '
    then Some(s[p..p + n])
    else None
  }

  /** The pattern matches at `p` with capture `w` exactly when `CaptureAt`
      reports `w`: backtracking the greedy run cannot help, as a letter is
      never a colon. */
  lemma CaptureAtIsTheMatch(s: string, p: nat, w: string)
    requires p <= |s|
    ensures PrefixMatchAt(s, p, w) <==> CaptureAt(s, p) == Some(w)
  {
    if PrefixMatchAt(s, p, w) {
      forall i | p <= i < p + |w|
        ensures IsLower(s[i])
      {
        assert s[i] == w[i - p];
      }
      LetterRunIs(s, p, |w|);
    }
  }

  /** Where the scan for a match, started at `p`, stops: the leftmost
      position at which the pattern matches, or the end of the text. */
  function MatchPosition(s: string, p: nat): (q: nat)
    requires p <= |s|
    ensures p <= q <= |s|
    ensures forall q' :: p <= q' < q ==> CaptureAt(s, q').None?
    ensures q < |s| ==> CaptureAt(s, q).Some?
    decreases |s| - p
  {
    if CaptureAt(s, p).Some? || p == |s| then p else MatchPosition(s, p + 1)
  }

  /** `match` from position `p` on: the capture at the leftmost position
      where the pattern matches. */
  function FirstCapture(s: string, p: nat): (c: Option<string>)
    requires p <= |s|
    ensures c.None? ==> forall q :: p <= q <= |s| ==> CaptureAt(s, q).None?
    ensures c.Some? ==> exists q :: p <= q <= |s| && CaptureAt(s, q) == c
                                   && forall q' :: p <= q' < q ==> CaptureAt(s, q').None?
  {
    CaptureAt(s, MatchPosition(s, p))
  }

  /** The message that fails a pull request with an unrecognised title: the
      format with an example, then one line per prefix. */
  const HeaderLines: seq<string> := [
    "Please follow the PR title format:",
    "```",
    "prefix: title",
    "```",
    // the fifth header line, written as two literals
    "Please find a prefix that best" + " describes your code changes:"
  ]

  /** One row of the prefix table. */
  function TableLine(entry: (string, string)): string {
    "- `" + entry.0 + "` - " + entry.1
  }

  /** The rows of the prefix table, in table order. */
  function TableLines(prefixes: seq<(string, string)>): (lines: seq<string>)
    ensures |lines| == |prefixes|
    ensures forall i :: 0 <= i < |lines| ==> lines[i] == TableLine(prefixes[i])
  {
    seq(|prefixes|, i requires 0 <= i < |prefixes| => TableLine(prefixes[i]))
  }

  function TitleFormatMessage(): string {
    FormatMessage(Prefixes())
  }

  /** `get_title_prefix_error`: nothing when the leftmost match captures one
      of the prefixes, the format message otherwise (no match at all, or an
      unknown prefix). */
  function TitlePrefixError(title: string): (e: Option<string>)
    ensures e.Some? ==> e.value == TitleFormatMessage()
    ensures e.None? <==> exists k :: k in PrefixKeys && FirstCapture(title, 0) == Some(k)
  {
    match FirstCapture(title, 0)
    case Some(prefix) => if prefix in PrefixKeys then None else Some(TitleFormatMessage())
    case None => Some(TitleFormatMessage())
  }

  /** Every prefix is a non-empty run of lower-case letters. */
  lemma PrefixIsWord(k: string)
    requires k in PrefixKeys
    ensures |k| >= 1 && AllLower(k)
  {
    var i :| 0 <= i < |PrefixKeys| && PrefixKeys[i] == k;
    KeyIsWord(i);
  }

  lemma KeyIsWord(i: nat)
    requires i < |PrefixKeys|
    ensures |PrefixKeys[i]| >= 1 && AllLower(PrefixKeys[i])
  {
    var k := PrefixKeys[i];
    assert |k| >= 1;
    forall j | 0 <= j < |k| ensures IsLower(k[j]) {
      if i == 0 { assert k == "build"; }
      else if i == 1 { assert k == "ci"; }
      else if i == 2 { assert k == "docs"; }
      else if i == 3 { assert k == "feat"; }
      else if i == 4 { assert k == "fix"; }
      else if i == 5 { assert k == "perf"; }
      else if i == 6 { assert k == "refactor"; }
      else if i == 7 { assert k == "style"; }
      else { assert k == "test"; }
    }
  }

  /** On a title without line feeds no position after the first starts a
      line, so the pattern matches nowhere else. */
  lemma NoCaptureAfterStart(title: string)
    requires '\n' !in title
    ensures forall q :: 1 <= q <= |title| ==> CaptureAt(title, q).None?
  {
    forall q | 1 <= q <= |title|
      ensures CaptureAt(title, q).None?
    {
      assert title[q - 1] in title;
    }
  }

  /** On a title without line feeds the leftmost match is the match at the
      start. */
  lemma FirstCaptureOfLine(title: string)
    requires '\n' !in title
    ensures FirstCapture(title, 0) == CaptureAt(title, 0)
  {
    NoCaptureAfterStart(title);
  }

  /** A title starts with the prefix `k`, a colon and a space. */
  predicate StartsWithPrefix(title: string, k: string) {
    |k| + 2 <= |title| && title[..|k| + 2] == k + ": "
  }

  /** A capture at the start means the title starts with it. */
  lemma CaptureAtStart(title: string, k: string)
    requires CaptureAt(title, 0) == Some(k)
    ensures StartsWithPrefix(title, k)
  {
    assert title[..|k| + 2] == title[..|k|] + title[|k|..|k| + 2];
  }

  /** A title that starts with a word, a colon and a space captures that
      word at the start. */
  lemma StartCaptures(title: string, k: string)
    requires |k| >= 1 && AllLower(k) && StartsWithPrefix(title, k)
    ensures CaptureAt(title, 0) == Some(k)
  {
    assert title[..|k|] == (k + ": ")[..|k|];
    assert title[|k|] == (k + ": ")[|k|];
    assert title[|k| + 1] == (k + ": ")[|k| + 1];
    assert PrefixMatchAt(title, 0, k);
    CaptureAtIsTheMatch(title, 0, k);
  }

  /** A one-line title passes exactly when it starts with one of the
      prefixes followed by a colon and a space. */
  lemma OneLineTitlePasses(title: string)
    requires '\n' !in title
    ensures TitlePrefixError(title).None? <==>
              exists k :: k in PrefixKeys && StartsWithPrefix(title, k)
  {
    FirstCaptureOfLine(title);
    if TitlePrefixError(title).None? {
      var k := CaptureAt(title, 0).value;
      CaptureAtStart(title, k);
    }
    if exists k :: k in PrefixKeys && StartsWithPrefix(title, k) {
      var k :| k in PrefixKeys && StartsWithPrefix(title, k);
      PrefixIsWord(k);
      StartCaptures(title, k);
    }
  }

  /** A title that starts with a known prefix, a colon and a space passes,
      whatever its later lines hold. */
  lemma KnownPrefixAtStartPasses(title: string, k: string)
    requires k in PrefixKeys && StartsWithPrefix(title, k)
    ensures TitlePrefixError(title).None?
  {
    PrefixIsWord(k);
    StartCaptures(title, k);
  }

  lemma KnownPrefixExample()
    ensures TitlePrefixError("fix: crash").None?
  {
    KnownPrefixAtStartPasses("fix: crash", "fix");
  }

  /** The prefix is case-sensitive. */
  lemma CapitalisedPrefixExample()
    ensures TitlePrefixError("Fix: crash").Some?
  {
    FirstCaptureOfLine("Fix: crash");
  }

  /** The colon must be followed by a space: a one-line title where a word
      and a colon are followed by anything else fails. */
  lemma ColonWithoutSpaceFails(w: string, rest: string)
    requires |w| >= 1 && AllLower(w)
    requires |rest| >= 1 && rest[0] != ' '
    requires '\n' !in w + ":" + rest
    ensures TitlePrefixError(w + ":" + rest).Some?
  {
    var s := w + ":" + rest;
    FirstCaptureOfLine(s);
    forall i | 0 <= i < |w|
      ensures IsLower(s[i])
    {
      assert s[i] == w[i];
    }
    LetterRunIs(s, 0, |w|);
  }

  /** "fix:crash" fails. */
  lemma MissingSpaceExample()
    ensures TitlePrefixError("fix" + ":" + "crash").Some?
  {
    ColonWithoutSpaceFails("fix", "crash");
  }

  /** A one-line title that starts with a word, a colon and a space fails
      when the word is not one of the prefixes: the capture is the whole
      word, never a prefix of it. */
  lemma UnknownWordFails(title: string, w: string)
    requires '\n' !in title
    requires |w| >= 1 && AllLower(w) && StartsWithPrefix(title, w) && w !in PrefixKeys
    ensures TitlePrefixError(title).Some?
  {
    FirstCaptureOfLine(title);
    StartCaptures(title, w);
  }

  /** A longer word that starts with a prefix is not that prefix. */
  lemma LongerWordExample()
    ensures TitlePrefixError("fixup: crash").Some?
  {
    assert "fixup: crash"[..7] == "fixup: ";
    UnknownWordFails("fixup: crash", "fixup");
  }

  /** A word outside the table fails even in the right format. */
  lemma UnknownWordExample()
    ensures TitlePrefixError("feature: x").Some?
  {
    assert "feature: x"[..9] == "feature: ";
    UnknownWordFails("feature: x", "feature");
  }

  /** A first line that does not start with a lower-case letter holds no
      match, whatever follows its line feed. */
  lemma FirstLineHasNoCapture(first: string, t: string)
    requires |first| >= 1 && !IsLower(first[0]) && '\n' !in first
    ensures forall q :: 0 <= q <= |first| ==> CaptureAt(first + "\n" + t, q).None?
  {
    var s := first + "\n" + t;
    forall q | 1 <= q <= |first|
      ensures CaptureAt(s, q).None?
    {
      assert s[q - 1] == first[q - 1];
      assert first[q - 1] in first;
    }
  }

  /** A line that starts with a word, a colon and a space captures that
      word at its start, after any earlier line. */
  lemma CaptureAfterLineFeed(first: string, t: string, k: string)
    requires |k| >= 1 && AllLower(k) && StartsWithPrefix(t, k)
    ensures CaptureAt(first + "\n" + t, |first| + 1) == Some(k)
  {
    var s := first + "\n" + t;
    var p := |first| + 1;
    assert s[p..] == t;
    StartCaptures(t, k);
    assert PrefixMatchAt(s, p, k) by {
      assert s[p - 1] == '\n';
      assert s[p..p + |k|] == t[..|k|];
    }
    CaptureAtIsTheMatch(s, p, k);
  }

  /** A first line that does not start with a lower-case letter never
      matches, so a prefix at the start of the second line is enough. */
  lemma PrefixOnSecondLinePasses(first: string, k: string, rest: string)
    requires |first| >= 1 && !IsLower(first[0]) && '\n' !in first
    requires k in PrefixKeys
    ensures TitlePrefixError(first + "\n" + k + ": " + rest).None?
  {
    var t := k + ": " + rest;
    var s := first + "\n" + t;
    assert first + "\n" + k + ": " + rest == s;
    PrefixIsWord(k);
    assert t[..|k| + 2] == k + ": ";
    FirstLineHasNoCapture(first, t);
    CaptureAfterLineFeed(first, t, k);
    assert MatchPosition(s, 0) == |first| + 1;
  }

  /** "WIP", a line feed, then "fix: crash" passes. */
  lemma PrefixOnLaterLineExample()
    ensures TitlePrefixError("WIP" + "\n" + "fix" + ": " + "crash").None?
  {
    PrefixOnSecondLinePasses("WIP", "fix", "crash");
  }

  /** Joining two non-empty lists of lines with one line feed between them is
      joining their concatenation. */
  lemma {:induction false} JoinLinesAppend(a: seq<string>, b: seq<string>)
    requires |a| >= 1 && |b| >= 1
    ensures JoinLines(a) + "\n" + JoinLines(b) == JoinLines(a + b)
    decreases |a|
  {
    if |a| > 1 {
      JoinLinesAppend(a[1..], b);
      assert (a + b)[1..] == a[1..] + b;
    } else {
      assert (a + b)[1..] == b;
    }
  }

  /** The rejection message for a prefix table: the header, then one row
      per prefix. */
  function FormatMessage(prefixes: seq<(string, string)>): string {
    JoinLines(HeaderLines) + "\n" + JoinLines(TableLines(prefixes))
  }

  /** The rejection message is the header lines and the table rows joined
      as one list of lines; an empty table leaves a trailing line feed. Kept
      apart from `FormatMessage` so that proofs about titles do not carry it. */
  lemma FormatMessageJoinsLines(prefixes: seq<(string, string)>)
    ensures |prefixes| >= 1 ==> FormatMessage(prefixes) == JoinLines(HeaderLines + TableLines(prefixes))
    ensures |prefixes| == 0 ==> FormatMessage(prefixes) == JoinLines(HeaderLines) + "\n"
  {
    if |prefixes| >= 1 {
      JoinLinesAppend(HeaderLines, TableLines(prefixes));
    }
  }

  /** Provided no prefix or description holds a line feed, the rejection
      message reads, line by line, as the header followed by one row per
      prefix, in table order. */
  lemma FormatMessageLines(prefixes: seq<(string, string)>)
    requires |prefixes| >= 1
    requires forall i :: 0 <= i < |prefixes| ==> '\n' !in prefixes[i].0 && '\n' !in prefixes[i].1
    ensures SplitLines(FormatMessage(prefixes)) == HeaderLines + TableLines(prefixes)
  {
    var lines := HeaderLines + TableLines(prefixes);
    FormatMessageJoinsLines(prefixes);
    forall i | 0 <= i < |lines|
      ensures '\n' !in lines[i]
    {
      if i < |HeaderLines| {
        HeaderLineHasNoLineFeed(i);
      } else {
        var k := i - |HeaderLines|;
        assert lines[i] == "- `" + prefixes[k].0 + "` - " + prefixes[k].1;
        NoLineFeedInConcat("- `", prefixes[k].0);
        NoLineFeedInConcat("- `" + prefixes[k].0, "` - ");
        NoLineFeedInConcat("- `" + prefixes[k].0 + "` - ", prefixes[k].1);
      }
    }
    SplitJoinLines(lines);
  }

  /** No header line holds a line feed. */
  lemma HeaderLineHasNoLineFeed(i: nat)
    requires i < |HeaderLines|
    ensures '\n' !in HeaderLines[i]
  {
    if i == 4 {
      NoLineFeedInConcat("Please find a prefix that best", " describes your code changes:");
    }
  }

  lemma NoLineFeedInConcat(a: string, b: string)
    requires '\n' !in a && '\n' !in b
    ensures '\n' !in a + b
  {
    forall j | 0 <= j < |a + b|
      ensures (a + b)[j] != '\n'
    {
      if j < |a| {
        assert (a + b)[j] == a[j];
      } else {
        assert (a + b)[j] == b[j - |a|];
      }
    }
  }

  // ---------------------------------------------------------------------
  // Commit titles and the pull-request number suffix: / \(#\d+\)$/

  /** Drops the empty pieces at the end, as Ruby's `split` does. */
  function DropTrailingEmpty(lines: seq<string>): (r: seq<string>)
    ensures |r| <= |lines| && r == lines[..|r|]
    ensures |r| > 0 ==> r[|r| - 1] != ""
    ensures forall i :: |r| <= i < |lines| ==> lines[i] == ""
    decreases |lines|
  {
    if |lines| > 0 && lines[|lines| - 1] == "" then DropTrailingEmpty(lines[..|lines| - 1]) else lines
  }

  /** The commit titles `git log --format='%s'` prints, one per line, as
      `split("\n")` cuts them: no title holds a line feed, and trailing empty
      titles are dropped. */
  function CommitTitles(log: string): (titles: seq<string>)
    ensures forall i :: 0 <= i < |titles| ==> '\n' !in titles[i]
    ensures |titles| > 0 ==> titles[|titles| - 1] != ""
  {
    DropTrailingEmpty(SplitLines(log))
  }

  /** Lines without line feeds, each followed by one, split into the lines
      and a last empty piece. */
  lemma SplitTerminatedLines(lines: seq<string>)
    requires |lines| >= 1
    requires forall i :: 0 <= i < |lines| ==> '\n' !in lines[i]
    ensures SplitLines(JoinLines(lines) + "\n") == lines + [""]
  {
    var all := lines + [""];
    JoinLinesAppend(lines, [""]);
    assert JoinLines(lines) + "\n" == JoinLines(all);
    forall i | 0 <= i < |all|
      ensures '\n' !in all[i]
    {
      if i < |lines| {
        assert all[i] == lines[i];
      }
    }
    SplitJoinLines(all);
  }

  /** A lone line feed holds no titles. */
  lemma EmptyLinesAreNoTitles()
    ensures CommitTitles("\n") == []
  {
    assert "\n"[1..] == "";
    assert SplitLines("") == [""];
    assert SplitLines("\n") == ["", ""];
    assert ["", ""][..1] == [""];
    assert DropTrailingEmpty([""]) == [];
  }

  /** Titles printed one per line, each ending in a line feed, are read back
      as they were printed, provided the last one is not empty. */
  lemma CommitTitlesOfLog(titles: seq<string>)
    requires forall i :: 0 <= i < |titles| ==> '\n' !in titles[i]
    requires |titles| > 0 ==> titles[|titles| - 1] != ""
    ensures CommitTitles(JoinLines(titles) + "\n") == titles
  {
    if |titles| == 0 {
      EmptyLinesAreNoTitles();
    } else {
      SplitTerminatedLines(titles);
      assert (titles + [""])[..|titles|] == titles;
    }
  }

  predicate IsDigit(c: char) {
    '0' <= c <= '9'
  }

  /** Ruby's `$`: the end of the string or just before a line feed. */
  predicate AtLineEnd(s: string, q: nat) {
    q <= |s| && (q == |s| || s[q] == '\n')
  }

  /** The pattern matches ending at `q` with `n` digits: a space, `(#`,
      the digits and `)`, then the end of a line. */
  predicate PrNumberMatchAt(s: string, q: nat, n: nat) {
    && n >= 1 && n + 4 <= q && AtLineEnd(s, q)
    && s[q - n - 4] == ' ' && s[q - n - 3] == '(' && s[q - n - 2] == '#'
    && (forall i :: q - n - 1 <= i < q - 1 ==> IsDigit(s[i]))
    && s[q - 1] == ')'
  }

  /** The length of the longest run of digits ending just before `j`. */
  function DigitRunBefore(s: string, j: nat): (n: nat)
    requires j <= |s|
    ensures n <= j
    ensures forall i :: j - n <= i < j ==> IsDigit(s[i])
    ensures n < j ==> !IsDigit(s[j - n - 1])
    decreases j
  {
    if j > 0 && IsDigit(s[j - 1]) then 1 + DigitRunBefore(s, j - 1) else 0
  }

  /** A run of digits preceded by a non-digit is the longest run. */
  lemma {:induction false} DigitRunBeforeIs(s: string, j: nat, n: nat)
    requires n <= j <= |s|
    requires forall i :: j - n <= i < j ==> IsDigit(s[i])
    requires n < j ==> !IsDigit(s[j - n - 1])
    ensures DigitRunBefore(s, j) == n
    decreases n
  {
    if n > 0 {
      DigitRunBeforeIs(s, j - 1, n - 1);
    }
  }

  /** Whether the pattern matches ending at `q`: the digits are those just
      before the closing parenthesis. */
  function PrNumberEndsAt(s: string, q: nat): (b: bool)
    requires q <= |s|
    ensures b ==> q >= 1 && PrNumberMatchAt(s, q, DigitRunBefore(s, q - 1))
  {
    && AtLineEnd(s, q) && q >= 1 && s[q - 1] == ')'
    && var n := DigitRunBefore(s, q - 1);
       n >= 1 && n + 4 <= q && s[q - n - 4] == ' ' && s[q - n - 3] == '(' && s[q - n - 2] == '#'
  }

  /** Every match ending at `q` is found: `#` is not a digit, so the digit
      run before the parenthesis is exactly the matched digits. */
  lemma PrNumberEndsAtFindsMatches(s: string, q: nat)
    requires q <= |s|
    ensures forall n :: PrNumberMatchAt(s, q, n) ==> PrNumberEndsAt(s, q)
  {
    forall n | PrNumberMatchAt(s, q, n)
      ensures PrNumberEndsAt(s, q)
    {
      DigitRunBeforeIs(s, q - 1, n);
    }
  }

  /** Whether the pattern matches ending at `q` or later. */
  function PrNumberFrom(s: string, q: nat): (b: bool)
    requires q <= |s|
    ensures b <==> exists q': nat, n: nat :: q <= q' <= |s| && PrNumberMatchAt(s, q', n)
    decreases |s| - q
  {
    PrNumberEndsAtFindsMatches(s, q);
    PrNumberEndsAt(s, q) || (q < |s| && PrNumberFrom(s, q + 1))
  }

  /** `title.match(/ \(#\d+\)$/)` is not `nil`. */
  function HasPrNumber(title: string): (b: bool)
    ensures b <==> exists q: nat, n: nat :: q <= |title| && PrNumberMatchAt(title, q, n)
  {
    PrNumberFrom(title, 0)
  }

  /** On a title without line feeds the number must end the title. */
  lemma OneLinePrNumberEndsTitle(title: string)
    requires '\n' !in title
    ensures HasPrNumber(title) <==> exists n :: PrNumberMatchAt(title, |title|, n)
  {
    if HasPrNumber(title) {
      var q: nat, n: nat :| q <= |title| && PrNumberMatchAt(title, q, n);
      assert q == |title|;
    }
  }

  lemma PrNumberExamples()
    ensures HasPrNumber("Add login screen (#128)")
    ensures !HasPrNumber("Add login screen (#128) again")
  {
    assert PrNumberMatchAt("Add login screen (#128)", 23, 3);
    OneLinePrNumberEndsTitle("Add login screen (#128) again");
  }

  /** How many elements of `xs` satisfy `f`, counted from the front. */
  function CountWhere(xs: seq<string>, f: string -> bool): (c: nat)
    ensures c <= |xs|
    decreases |xs|
  {
    if |xs| == 0 then 0
    else CountWhere(xs[..|xs| - 1], f) + (if f(xs[|xs| - 1]) then 1 else 0)
  }

  /** The positions of the elements of `xs` that satisfy `f`. */
  function PositionsWhere(xs: seq<string>, f: string -> bool): set<nat> {
    set i: nat | i < |xs| && f(xs[i])
  }

  /** The count is the number of satisfying positions. */
  lemma {:induction false} CountWhereCountsPositions(xs: seq<string>, f: string -> bool)
    ensures CountWhere(xs, f) == |PositionsWhere(xs, f)|
    decreases |xs|
  {
    if |xs| > 0 {
      var init := xs[..|xs| - 1];
      var last := |xs| - 1;
      CountWhereCountsPositions(init, f);
      var extra: set<nat> := if f(xs[last]) then {last} else {};
      forall i: nat
        ensures i in PositionsWhere(xs, f) <==> i in PositionsWhere(init, f) + extra
      {
        if i < last {
          assert xs[i] == init[i];
        }
      }
      assert PositionsWhere(xs, f) == PositionsWhere(init, f) + extra;
      assert last !in PositionsWhere(init, f);
    }
  }

  /** `titles.count { ... }` for the pull-request number. */
  function PrCount(titles: seq<string>): (c: nat)
    ensures c <= |titles|
  {
    CountWhere(titles, HasPrNumber)
  }

  /** The positions of the titles that carry a pull-request number. */
  function NumberedPositions(titles: seq<string>): set<nat> {
    set i: nat | i < |titles| && HasPrNumber(titles[i])
  }

  /** The count is the number of titles that carry a pull-request number. */
  lemma PrCountCountsNumbered(titles: seq<string>)
    ensures PrCount(titles) == |NumberedPositions(titles)|
  {
    CountWhereCountsPositions(titles, HasPrNumber);
    assert PositionsWhere(titles, HasPrNumber) == NumberedPositions(titles);
  }

  /** `is_potential_umbrella?`. The division is in floating point: with no
      commits it is 0 / 0.0, which is NaN, and NaN is not >= 0.5. */
  function IsPotentialUmbrella(titles: seq<string>): (b: bool)
    ensures b <==> |titles| > 0 && 2 * PrCount(titles) >= |titles|
  {
    var c, n := PrCount(titles) as real, |titles| as real;
    if n == 0.0 then false
    else
      HalfOrMore(c, n);
      c / n >= 0.5
  }

  /** For a positive count `n`, `c / n >= 0.5` says that `c` is at least
      half of `n`. */
  lemma HalfOrMore(c: real, n: real)
    requires n > 0.0
    ensures c / n >= 0.5 <==> 2.0 * c >= n
  {
    var q := c / n;
    assert q * n == c;
    if q >= 0.5 {
      assert q * n >= 0.5 * n;
    } else {
      assert q * n < 0.5 * n;
    }
  }

  /** A title without line feeds whose last character is not `)` carries
      no pull-request number. */
  lemma NoClosingParenthesisNoNumber(title: string)
    requires '\n' !in title && (|title| == 0 || title[|title| - 1] != ')')
    ensures !HasPrNumber(title)
  {
    OneLinePrNumberEndsTitle(title);
  }

  /** Counting one more title adds one exactly when it carries a number. */
  lemma PrCountAppend(titles: seq<string>, t: string)
    ensures PrCount(titles + [t]) == PrCount(titles) + (if HasPrNumber(t) then 1 else 0)
  {
    assert (titles + [t])[..|titles|] == titles;
  }

  /** Exactly half the commits is enough to call a branch a potential
      umbrella; less than half is not, and neither is an empty branch. */
  lemma PotentialUmbrellaThreshold()
    ensures IsPotentialUmbrella(["Add login (#12)", "Tidy up"])
    ensures !IsPotentialUmbrella(["Add login (#12)", "Tidy up", "Fix typo"])
    ensures !IsPotentialUmbrella([])
  {
    var numbered, plain, other := "Add login (#12)", "Tidy up", "Fix typo";
    assert PrNumberMatchAt(numbered, 15, 2);
    NoClosingParenthesisNoNumber(plain);
    NoClosingParenthesisNoNumber(other);
    PrCountAppend([], numbered);
    PrCountAppend([numbered], plain);
    PrCountAppend([numbered, plain], other);
  }

  // ---------------------------------------------------------------------
  // The umbrella label and the report

  /** The label text: U+26F1 (umbrella on ground), the emoji variation
      selector U+FE0F, a space and "umbrella". */
  const UmbrellaLabel: string := "\U{26F1}\U{FE0F} umbrella"

  /** `is_umbrella?`: some label is exactly the umbrella label. */
  function IsUmbrella(labels: seq<string>): (b: bool)
    ensures b <==> exists i :: 0 <= i < |labels| && labels[i] == UmbrellaLabel
  {
    UmbrellaLabel in labels
  }

  const PotentialUmbrellaText: string :=
    "This PR looks like an umbrella PR. Add the umbrella label if it is; ignore the warning if you plan to squash merge this PR."

  /** `get_potential_umbrella_warning`: a warning when most commits carry a
      pull-request number and the label is missing. */
  function PotentialUmbrellaWarning(titles: seq<string>, labels: seq<string>): (w: Option<string>)
    ensures w.Some? <==> |titles| > 0 && 2 * PrCount(titles) >= |titles| && UmbrellaLabel !in labels
    ensures w.Some? ==> w.value == PotentialUmbrellaText
  {
    if IsPotentialUmbrella(titles) && !IsUmbrella(labels) then Some(PotentialUmbrellaText) else None
  }

  const UmbrellaIntro: string := "This PR is marked as `"

  /** The text after the label, up to the opening of the code block that
      holds the ASCII-art banner. */
  const UmbrellaOutro: string :=
    "` that targets at rebasing onto the main branch.\n\nKeep every single commit informative of ticket IDs or PR numbers.\nPlease ensure you merge this branch by **REBASE MERGE** to preserve all the commits in the history.\n```\n"

  /** The warning for a labelled branch, around the banner: it names the
      label just after the introduction. */
  function UmbrellaWarningText(banner: string): (t: string)
    ensures |UmbrellaIntro| + |UmbrellaLabel| <= |t|
    ensures t[..|UmbrellaIntro|] == UmbrellaIntro
    ensures t[|UmbrellaIntro|..|UmbrellaIntro| + |UmbrellaLabel|] == UmbrellaLabel
  {
    ConcatParts(UmbrellaIntro, UmbrellaLabel, UmbrellaOutro + banner + "\n```");
    UmbrellaIntro + UmbrellaLabel + (UmbrellaOutro + banner + "\n```")
  }

  /** The first two parts of a three-part text are found at their offsets. */
  lemma ConcatParts(a: string, b: string, c: string)
    ensures (a + b + c)[..|a|] == a
    ensures (a + b + c)[|a|..|a| + |b|] == b
  {
  }

  /** `get_umbrella_warning`: a warning, naming the label, exactly when the
      label is present. */
  function UmbrellaWarning(labels: seq<string>, banner: string): (w: Option<string>)
    ensures w.Some? <==> UmbrellaLabel in labels
    ensures w.Some? ==> w.value == UmbrellaWarningText(banner)
  {
    if IsUmbrella(labels) then Some(UmbrellaWarningText(banner)) else None
  }

  /** What Danger is told: failures fail the pull request, warnings are
      shown. */
  datatype Report = Report(failures: seq<string>, warnings: seq<string>)

  function Listed(o: Option<string>): (l: seq<string>)
    ensures o.None? ==> l == []
    ensures o.Some? ==> l == [o.value]
  {
    match o
    case None => []
    case Some(v) => [v]
  }

  /** The script's main part, for the pull request's title, the output of
      `git log` over the branch and the pull request's labels. */
  function CheckPullRequest(title: string, log: string, labels: seq<string>, banner: string): (r: Report)
    ensures |r.failures| <= 1
    ensures |r.failures| == 1 <==> TitlePrefixError(title).Some?
    ensures |r.failures| == 1 ==> r.failures[0] == TitleFormatMessage()
    ensures |r.warnings| <= 1
    ensures |r.warnings| == 1 <==> IsUmbrella(labels) || IsPotentialUmbrella(CommitTitles(log))
    ensures IsUmbrella(labels) ==> r.warnings == [UmbrellaWarningText(banner)]
    ensures !IsUmbrella(labels) && IsPotentialUmbrella(CommitTitles(log)) ==> r.warnings == [PotentialUmbrellaText]
  {
    var failure := TitlePrefixError(title);
    var potential := PotentialUmbrellaWarning(CommitTitles(log), labels);
    var marked := UmbrellaWarning(labels, banner);
    assert potential.Some? ==> marked.None?;
    Report(Listed(failure), Listed(potential) + Listed(marked))
  }
}

=== FILE: Quadrants.dfy ===
/** Quadrant classification of a point against the centre of a bounding
    rectangle. Screen coordinates grow downwards, so the "upper" quadrants
    I and II are those with the smaller y. */
module Quadrants {
  import opened Geometry

  datatype Quadrant = I | II | III | IV

  /** The point where the classification axes cross: the bounding
      rectangle's minimum corner plus half its (standardized) extent. */
  function AxesOrigin(bounding: Rect): (o: Point)
    ensures o.x == (bounding.MinX() + bounding.MaxX()) / 2.0
    ensures o.y == (bounding.MinY() + bounding.MaxY()) / 2.0
  {
    Point(bounding.MinX() + bounding.Width() / 2.0,
          bounding.MinY() + bounding.Height() / 2.0)
  }

  /** `Quadrant(point:bounding:)`. The right half (I, IV) includes the
      vertical axis and the upper half (I, II) includes the horizontal axis. */
  function QuadrantOf(point: Point, bounding: Rect): (q: Quadrant)
    ensures q == I || q == IV <==> point.x >= (bounding.MinX() + bounding.MaxX()) / 2.0
    ensures q == I || q == II <==> point.y <= (bounding.MinY() + bounding.MaxY()) / 2.0
  {
    var origin := AxesOrigin(bounding);
    if point.x >= origin.x then
      if point.y <= origin.y then I else IV
    else
      if point.y <= origin.y then II else III
  }

  /** The centre of the bounding rectangle itself lies in quadrant I. */
  lemma CentreIsInQuadrantI(bounding: Rect)
    ensures QuadrantOf(Point(bounding.MidX(), bounding.MidY()), bounding) == I
  {
    MidIsMeanOfEdges(bounding);
  }

  /** Moving the point and the bounding rectangle by the same vector does not
      change the classification. */
  lemma QuadrantIsTranslationInvariant(point: Point, bounding: Rect, t: Point)
    ensures QuadrantOf(Point(point.x + t.x, point.y + t.y), Offset(bounding, t))
         == QuadrantOf(point, bounding)
  {
  }
}

=== FILE: RectEdges.dfy ===
/** The current rectangle helpers: the eight edge and corner targets, the
    translation that brings a rectangle onto each of them, alignment, and the
    search for the target that needs the shortest move. */
module RectEdges {
  import opened Optional
  import opened Geometry

  /** `CGRect.Edge`, in declaration order. */
  datatype Edge = Top | Left | Bottom | Right | TopLeft | TopRight | BottomLeft | BottomRight

  /** `Edge.allCases`: every case, in declaration order. */
  const AllEdges: seq<Edge> := [Top, Left, Bottom, Right, TopLeft, TopRight, BottomLeft, BottomRight]

  /** The position of `e` in `AllEdges`. */
  function IndexOf(e: Edge): (i: nat)
    ensures i < |AllEdges| && AllEdges[i] == e
  {
    match e
    case Top => 0
    case Left => 1
    case Bottom => 2
    case Right => 3
    case TopLeft => 4
    case TopRight => 5
    case BottomLeft => 6
    case BottomRight => 7
  }

  predicate IsSide(e: Edge) {
    e == Top || e == Left || e == Bottom || e == Right
  }

  /** The edges of `r` that `e` names coincide with those of `target`. */
  predicate Flush(r: Rect, target: Rect, e: Edge) {
    && (e in {Top, TopLeft, TopRight} ==> r.MinY() == target.MinY())
    && (e in {Bottom, BottomLeft, BottomRight} ==> r.MaxY() == target.MaxY())
    && (e in {Left, TopLeft, BottomLeft} ==> r.MinX() == target.MinX())
    && (e in {Right, TopRight, BottomRight} ==> r.MaxX() == target.MaxX())
  }

  /** `translation(to:edge:)`: the vector that moves `r` so that the edges `e`
      names meet those of `target`. A side moves along one axis only. */
  function Translation(r: Rect, target: Rect, e: Edge): (t: Point)
    ensures Flush(Offset(r, t), target, e)
    ensures e == Top || e == Bottom ==> t.x == 0.0
    ensures e == Left || e == Right ==> t.y == 0.0
  {
    match e
    case Top => Point(0.0, target.MinY() - r.MinY())
    case Left => Point(target.MinX() - r.MinX(), 0.0)
    case Bottom => Point(0.0, target.MaxY() - r.MaxY())
    case Right => Point(target.MaxX() - r.MaxX(), 0.0)
    case TopLeft => Point(target.MinX() - r.MinX(), target.MinY() - r.MinY())
    case TopRight => Point(target.MaxX() - r.MaxX(), target.MinY() - r.MinY())
    case BottomLeft => Point(target.MinX() - r.MinX(), target.MaxY() - r.MaxY())
    case BottomRight => Point(target.MaxX() - r.MaxX(), target.MaxY() - r.MaxY())
  }

  /** A corner's translation takes its x from the matching vertical side and
      its y from the matching horizontal side. */
  lemma CornerTranslationCombinesSides(r: Rect, target: Rect)
    ensures Translation(r, target, TopLeft)
         == Point(Translation(r, target, Left).x, Translation(r, target, Top).y)
    ensures Translation(r, target, TopRight)
         == Point(Translation(r, target, Right).x, Translation(r, target, Top).y)
    ensures Translation(r, target, BottomLeft)
         == Point(Translation(r, target, Left).x, Translation(r, target, Bottom).y)
    ensures Translation(r, target, BottomRight)
         == Point(Translation(r, target, Right).x, Translation(r, target, Bottom).y)
  {
  }

  /** `aligned(to:at:)` exactly as the source writes it: both components of the
      translation are added to `origin.x`, so `origin.y` never moves. */
  function AlignedAsWritten(r: Rect, target: Rect, e: Edge): (o: Rect)
    ensures o.size == r.size
    ensures o.origin.y == r.origin.y
    ensures o.origin.x == r.origin.x + Translation(r, target, e).x + Translation(r, target, e).y
  {
    var t := Translation(r, target, e);
    var once := Rect(Point(r.origin.x + t.x, r.origin.y), r.size);
    Rect(Point(once.origin.x + t.y, once.origin.y), once.size)
  }

  /** The as-written alignment fails to reach the top edge: a 10x10 square at
      the origin, aligned to the top of a rectangle starting at y = 5, moves
      right by 5 instead of down by 5. */
  lemma AlignedAsWrittenMissesTop()
    ensures var r := MakeRect(0.0, 0.0, 10.0, 10.0);
            var target := MakeRect(0.0, 5.0, 100.0, 100.0);
            var o := AlignedAsWritten(r, target, Top);
            o == MakeRect(5.0, 0.0, 10.0, 10.0) && !Flush(o, target, Top)
  {
    var r := MakeRect(0.0, 0.0, 10.0, 10.0);
    var target := MakeRect(0.0, 5.0, 100.0, 100.0);
    assert Translation(r, target, Top) == Point(0.0, 5.0);
  }

  /** The evidently intended alignment: the translation's y component moves
      `origin.y`. The result is `r` moved by the translation, so it is flush
      with `target` on the edges `e` names and keeps its size. */
  function Aligned(r: Rect, target: Rect, e: Edge): (o: Rect)
    ensures o.size == r.size
    ensures Flush(o, target, e)
    ensures e == Top || e == Bottom ==> o.origin.x == r.origin.x
    ensures e == Left || e == Right ==> o.origin.y == r.origin.y
  {
    var t := Translation(r, target, e);
    Rect(Point(r.origin.x + t.x, r.origin.y + t.y), r.size)
  }

  /** Aligning an aligned rectangle to the same target again changes nothing. */
  lemma AlignedIsIdempotent(r: Rect, target: Rect, e: Edge)
    ensures Aligned(Aligned(r, target, e), target, e) == Aligned(r, target, e)
  {
    var o := Aligned(r, target, e);
    var t := Translation(o, target, e);
    assert t == Zero;
  }

  /** The candidates `closestEdge(to:)` compares: every edge paired with its
      translation, in declaration order. */
  function Candidates(r: Rect, target: Rect): (cs: seq<(Edge, Point)>)
    ensures |cs| == |AllEdges|
    ensures forall i :: 0 <= i < |cs| ==> cs[i] == (AllEdges[i], Translation(r, target, AllEdges[i]))
  {
    seq(|AllEdges|, i requires 0 <= i < |AllEdges| => (AllEdges[i], Translation(r, target, AllEdges[i])))
  }

  /** The position `min(by:)` settles on when it walks `cs` from the front and
      only replaces its current best by a strictly shorter translation: a
      shortest translation, and the first of the shortest ones. */
  function FirstShortest(cs: seq<(Edge, Point)>): (k: nat)
    requires |cs| > 0
    ensures k < |cs|
    ensures forall j :: 0 <= j < |cs| ==> Magnitude2(cs[k].1) <= Magnitude2(cs[j].1)
    ensures forall j :: 0 <= j < k ==> Magnitude2(cs[j].1) > Magnitude2(cs[k].1)
    decreases |cs|
  {
    if |cs| == 1 then 0
    else
      var best := FirstShortest(cs[..|cs| - 1]);
      if Magnitude2(cs[|cs| - 1].1) < Magnitude2(cs[best].1) then |cs| - 1 else best
  }

  /** `min(by:)` over the candidates, keeping the first minimum; `None` only
      for an empty sequence. */
  function MinByMagnitude(cs: seq<(Edge, Point)>): (m: Option<(Edge, Point)>)
    ensures m.None? <==> |cs| == 0
    ensures m.Some? ==> m.value in cs
    ensures m.Some? ==> forall c :: c in cs ==> Magnitude2(m.value.1) <= Magnitude2(c.1)
  {
    if |cs| == 0 then None else Some(cs[FirstShortest(cs)])
  }

  lemma IndexOfListed(k: nat)
    requires k < |AllEdges|
    ensures IndexOf(AllEdges[k]) == k
  {
  }

  /** `closestEdge(to:)`: always present; its translation is the one for its
      edge, no edge needs a shorter one, and every edge declared before it
      needs a strictly longer one. */
  function ClosestEdge(r: Rect, target: Rect): (m: Option<(Edge, Point)>)
    ensures m.Some?
    ensures m.value.1 == Translation(r, target, m.value.0)
    ensures forall e :: Magnitude2(m.value.1) <= Magnitude2(Translation(r, target, e))
    ensures forall e :: IndexOf(e) < IndexOf(m.value.0) ==>
              Magnitude2(m.value.1) < Magnitude2(Translation(r, target, e))
  {
    var cs := Candidates(r, target);
    var m := MinByMagnitude(cs);
    assert forall e :: cs[IndexOf(e)] == (e, Translation(r, target, e));
    IndexOfListed(FirstShortest(cs));
    m
  }

  /** Dropping one component of a vector never lengthens it. */
  lemma DroppingAComponentShortens(a: real, b: real)
    ensures Magnitude2(Point(0.0, b)) <= Magnitude2(Point(a, b))
    ensures Magnitude2(Point(a, 0.0)) <= Magnitude2(Point(a, b))
  {
    SquareSign(a);
    SquareSign(b);
  }

  /** When each of the last four candidates is at least as long as one of
      the first four, the first shortest candidate is among the first four. */
  lemma FirstShortestAmongFirstFour(cs: seq<(Edge, Point)>)
    requires |cs| == 8
    requires Magnitude2(cs[0].1) <= Magnitude2(cs[4].1)
    requires Magnitude2(cs[0].1) <= Magnitude2(cs[5].1)
    requires Magnitude2(cs[2].1) <= Magnitude2(cs[6].1)
    requires Magnitude2(cs[2].1) <= Magnitude2(cs[7].1)
    ensures FirstShortest(cs) < 4
  {
  }

  /** A corner's translation is never shorter than that of either of its
      sides, and both sides come earlier in declaration order, so the first
      shortest candidate is always a side. */
  lemma ClosestEdgeIsASide(r: Rect, target: Rect)
    ensures IsSide(ClosestEdge(r, target).value.0)
  {
    var cs := Candidates(r, target);
    var top, left := Translation(r, target, Top), Translation(r, target, Left);
    var bottom, right := Translation(r, target, Bottom), Translation(r, target, Right);
    CornerTranslationCombinesSides(r, target);
    assert cs[0].1 == Point(0.0, top.y);
    assert cs[2].1 == Point(0.0, bottom.y);
    assert cs[4].1 == Point(left.x, top.y);
    assert cs[5].1 == Point(right.x, top.y);
    assert cs[6].1 == Point(left.x, bottom.y);
    assert cs[7].1 == Point(right.x, bottom.y);
    DroppingAComponentShortens(left.x, top.y);
    DroppingAComponentShortens(right.x, top.y);
    DroppingAComponentShortens(left.x, bottom.y);
    DroppingAComponentShortens(right.x, bottom.y);
    FirstShortestAmongFirstFour(cs);
    var k := FirstShortest(cs);
    assert ClosestEdge(r, target).value.0 == AllEdges[k];
    SidesComeFirst(k);
  }

  lemma SidesComeFirst(k: nat)
    requires k < 4
    ensures IsSide(AllEdges[k])
  {
  }

  /** `minimumTransltion(to:)`: the translation to the closest edge; the
      `.zero` fallback for a missing closest edge is never taken. */
  function MinimumTranslation(r: Rect, target: Rect): (t: Point)
    ensures t == Translation(r, target, ClosestEdge(r, target).value.0)
    ensures forall e :: Magnitude2(t) <= Magnitude2(Translation(r, target, e))
  {
    match ClosestEdge(r, target)
    case None => Zero
    case Some(info) => info.1
  }
}

=== FILE: Touches.dfy ===
/** The `Touch` value: one sample of a contact, identified by the contact's
    identifier together with the sampled point. */
module Touches {
  import opened Optional
  import opened Geometry

  datatype Touch = Touch(identifier: string, point: Point)

  /** `Touch.==`: both the identifier and the point must agree. This is the
      same relation as value equality of the datatype. */
  function Equal(a: Touch, b: Touch): (eq: bool)
    ensures eq <==> a == b
  {
    a.identifier == b.identifier && a.point == b.point
  }

  /** What `hash(into:)` feeds the hasher, in order: the touch can be
      rebuilt from them, so no field it is compared on is left out. */
  function HashInputs(t: Touch): (h: (string, Point))
    ensures Touch(h.0, h.1) == t
  {
    (t.identifier, t.point)
  }

  /** The hash consumes exactly the fields `==` compares: equal touches feed
      equal inputs, and equal inputs come only from equal touches. */
  lemma HashAgreesWithEquality(a: Touch, b: Touch)
    ensures Equal(a, b) <==> HashInputs(a) == HashInputs(b)
  {
  }

  /** `==` is an equivalence relation. */
  lemma EqualIsEquivalence(a: Touch, b: Touch, c: Touch)
    ensures Equal(a, a)
    ensures Equal(a, b) <==> Equal(b, a)
    ensures Equal(a, b) && Equal(b, c) ==> Equal(a, c)
  {
  }

  /** Two samples of the same contact at different points are different
      touches, so a set of touches keeps both. */
  lemma SamplesOfOneContactAreDistinct(id: string, p: Point, q: Point)
    requires p != q
    ensures !Equal(Touch(id, p), Touch(id, q))
    ensures |{Touch(id, p), Touch(id, q)}| == 2
  {
  }

  /** `Set.first`: some element of a non-empty set, none of an empty one.
      Which element is left unspecified, as the set's iteration order is. */
  ghost function First(touches: set<Touch>): (t: Option<Touch>)
    ensures t.None? <==> touches == {}
    ensures t.Some? ==> t.value in touches
  {
    if touches == {} then None else var t :| t in touches; Some(t)
  }

  lemma FirstOfSingleton(t: Touch)
    ensures First({t}) == Some(t)
  {
  }
}
